=== FILE: README.md ===
# Faith exercises backend — a verified model

This project models the decision logic of a faith-habit-tracking backend (a Laravel
application). Users follow exercises made of tasks, tick tasks off once, daily or weekly,
keep a journal, set personal goals and read a daily reflection. Admins create tasks and
announcements, and every user receives these as push notifications. The model covers:

- **Progress ledger** (`task_progress.dfy`). It computes the period key a tick is stored
  under: `single`, the `Y-m-d` date, or the ISO week `o-\WW`. It checks the duration window
  of daily tasks and implements toggle and show over a ledger that holds one entry per
  (user, task, period, key).
- **Calendar** (`calendar.dfy`). Day numbers and instants convert to civil dates and ISO 8601
  week dates. Both key formats are proved to read back to the day or week they encode.
- **Task creation and its notification** (`tasks.dfy`, `task_notification.dfy`). Creating a
  task decides whether its announcement goes out now, later or never. The queued job has
  guards and builds the message body and data payload.
- **Push service** (`fcm.dfy`). It builds HTTP v1 messages for a topic or a token and
  stringifies the data payload. A send succeeds only when the service is configured and the
  push endpoint answers with a 2xx status.
- **Webhook authentication** (`webhook.dfy`). Four checks run in order: API key, calling
  domain, timestamp freshness and HMAC signature.
- **Blog and admin announcements** (`blog_notification.dfy`, `custom_notification.dfy`).
  These cover validation, body truncation, payloads and responses.
- **Goals** (`goals.dfy`, `goal_controller.dfy`):
  - labels, `is_overdue` and `days_remaining`;
  - the query scopes and the filtered, sorted listing;
  - create, update, progress and toggle with their auto-completion rules;
  - per-user isolation and the statistics counts.
- **Journal and reflections** (`journal.dfy`, `reflections.dfy`). The journal covers
  owner-only changes and the inclusive date filters with newest-first order. Reflections
  cover the seven-day feed.

Shared building blocks:

- `wrappers.dfy` holds `Option`, `Result` and the `Failure` of a request: a validation
  failure or an explicit status.
- `strings.dfy` holds PHP string primitives: `(string)` casts, `trim`, `ucfirst`, `mb_substr`
  and truthiness.
- `sequences.dfy` holds `where` as `Filter` and `orderBy` as `SortBy`, over tables held as
  sequences.

The model is functional. Database tables are sequences or sets of immutable records. Every
request handler is a pure function from the table and the request to a result and a new
table. Foreign code is passed in as function parameters rather than modelled. That covers
`strip_tags`, `parse_url`, the `url` validation rule, PHP's `(int)` cast of a header,
HMAC-SHA256, and the push endpoint's HTTP status. The clock is a parameter too: `now` is an
instant and `today` a day number, both in the application's single timezone.

## Model

| member | source | states |
|---|---|---|
| Strings.NatToStringRoundTrip | app/Jobs/SendTaskNotification.php:67 | the `(string)` cast of a non-negative id is a numeral that reads back as the same number |
| Strings.IntToStringRoundTrip | app/Http/Controllers/BlogNotificationController.php:58 | the `(string)` cast of any integer, negative ones included, reads back as that integer |
| Strings.PadRoundTrip | app/Http/Controllers/TaskProgressController.php:19 | zero-padding a date field to a fixed width never changes the number it denotes |
| Strings.TrimStart | app/Jobs/SendTaskNotification.php:63 | what is removed from the front is all trim characters, and what remains does not start with one |
| Strings.TrimEnd | app/Jobs/SendTaskNotification.php:63 | what is removed from the back is all trim characters, and what remains does not end with one |
| Strings.Trim | app/Jobs/SendTaskNotification.php:63 | the result is the input with only characters from its two ends removed, all of them spaces, tabs, newlines, carriage returns, NULs or vertical tabs, and it neither starts nor ends with one |
| Strings.TrimUnique | app/Jobs/SendTaskNotification.php:63 | any string cut from the input's ends that way and left without a blank at either end is exactly `trim`'s result |
| Strings.TrimFixpoint | app/Jobs/SendTaskNotification.php:63 | a string without blanks at its ends is left unchanged by `trim` |
| Strings.TrimIdempotent | app/Jobs/SendTaskNotification.php:63 | trimming twice is the same as trimming once |
| Strings.Take | app/Http/Controllers/BlogNotificationController.php:52 | `mb_substr(s, 0, n)` is a prefix of s, n characters long or all of s when s is shorter |
| Strings.Ucfirst | app/Models/UserGoal.php:65 | `ucfirst` keeps the length, upper-cases the first character and leaves the rest unchanged |
| Calendar.DayOfStartOfDay | app/Http/Controllers/TaskProgressController.php:33 | 00:00 of a day lies on that day |
| Calendar.DayOfBounds | app/Http/Controllers/TaskProgressController.php:33-40 | an instant is on an earlier day exactly when it is before the day's `startOfDay`, and on a later day exactly when it is after its `endOfDay` (23:59:59) |
| Calendar.DayToDate | app/Http/Controllers/TaskProgressController.php:19 | every day number has a valid Gregorian date that maps back to it |
| Calendar.DateRoundTrip | app/Http/Controllers/TaskProgressController.php:19 | every valid Gregorian date is the date of exactly one day number |
| Calendar.IsoWeekOf | app/Http/Controllers/TaskProgressController.php:22 | the ISO week-numbering year and week of a day, with the week in 1..53 |
| Calendar.IsoWeekOfSameWeekIff | app/Http/Controllers/TaskProgressController.php:22 | two days have the same ISO year and week exactly when they lie in the same Monday-to-Sunday week |
| Calendar.IsoWeekOfJanuaryFourth | app/Http/Controllers/TaskProgressController.php:22 | the week holding January 4th is week 1 of its ISO year (ISO 8601) |
| Calendar.DateStringRoundTrip | app/Http/Controllers/TaskProgressController.php:19 | the `Y-m-d` text of a date reads back as that date |
| Calendar.WeekStringRoundTrip | app/Http/Controllers/TaskProgressController.php:22 | the `o-\WW` text of an ISO week reads back as that week |
| Calendar.DailyKey | app/Http/Controllers/TaskProgressController.php:19 | the daily key of a day reads back as the day's civil date |
| Calendar.WeeklyKey | app/Http/Controllers/TaskProgressController.php:22 | the weekly key of a day reads back as the day's ISO year and week |
| Calendar.DailyKeyInjective | app/Http/Controllers/TaskProgressController.php:19 | two days have the same daily key exactly when they are the same day |
| Calendar.WeeklyKeySameWeekIff | app/Http/Controllers/TaskProgressController.php:22 | two days have the same weekly key exactly when they lie in the same Monday-to-Sunday week |
| Calendar.WeeklyKeyYearBoundary | app/Http/Controllers/TaskProgressController.php:22 | Monday 2024-12-30 is ticked under `2025-W01`, the ISO year rather than the calendar year |
| Calendar.WeeklyKeyWeekBoundary | app/Http/Controllers/TaskProgressController.php:22 | Wednesday 2025-01-01 and Sunday 2025-01-05 share a weekly key; Monday 2025-01-06 starts a new one |
| Calendar.DailyKeyOfDate | app/Http/Controllers/TaskProgressController.php:19 | the daily key of a date's day is that date written `Y-m-d` |
| Calendar.DateStringExample | app/Http/Controllers/TaskProgressController.php:19 | month and day are zero-padded: 2025-01-01 is written `2025-01-01` |
| Sequences.Filter | app/Http/Controllers/JournalController.php:17-26 | a `where` keeps exactly the rows meeting its condition, each as often as in the table |
| Sequences.FilterPartition | app/Models/UserGoal.php:120-131 | a condition and its negation split a table: the two selections together have as many rows as the table |
| Sequences.SortBy | app/Http/Controllers/ReflectionController.php:17 | `orderBy` returns the same rows, as a permutation, in ascending key order |
| Sequences.FilterKeepsDistinct | database/migrations/2025_11_28_150000_create_reflections_table.php:19 | selecting rows from a table with a unique column keeps that column unique |
| Sequences.DistinctKeysBound | database/migrations/2025_11_28_150000_create_reflections_table.php:19 | rows with pairwise different keys inside a range of w values number at most w |
| Fcm.StringifyValue | app/Services/FcmV1Service.php:106 | strings pass unchanged; integers become numerals that read back; true becomes "1" and false ""; null and composites become their JSON text |
| Fcm.StringifyData | app/Services/FcmV1Service.php:101-109 | the string payload has the same keys, each value stringified |
| Fcm.StringifyStrings | app/Services/FcmV1Service.php:101-109 | a payload made only of strings passes through unchanged |
| Fcm.StringifyIntegersRoundTrip | app/Services/FcmV1Service.php:106 | every integer in a payload can be read back from its string |
| Fcm.Send | app/Services/FcmV1Service.php:39-71 | a message is posted exactly when a project id and an access token are available; the send reports true exactly when it was posted and answered with a 2xx status |
| Fcm.SendToTopic | app/Services/FcmV1Service.php:12-23 | the posted message addresses the topic with exactly the given title and body and the stringified data; posted iff configured; true iff configured and the endpoint answers 2xx |
| Fcm.SendToTokens | app/Services/FcmV1Service.php:25-37 | an empty token list posts nothing and returns false; otherwise the message is posted iff configured, addressed to the first token with the given title, body and stringified data; true iff posted and answered 2xx |
| Fcm.SendToTokensIgnoresRest | app/Services/FcmV1Service.php:29 | tokens after the first make no difference to what is sent |
| Tasks.DecideDispatch | app/Http/Controllers/Admin/TaskController.php:64-76 | an inactive task is never dispatched; an active one is dispatched now exactly when it has no start date or its start is past, otherwise delayed to exactly its start, which is not before now |
| Tasks.StoreTask | app/Http/Controllers/Admin/TaskController.php:41-76 | the task is created exactly when the form is valid and carries a schedule; invalid forms are 422 and a valid one without a schedule fails at the insert with 500; the form's fields are stored; it is active only when `is_active` is sent true; the dispatch follows the stored task |
| Tasks.MissingScheduleFails | database/migrations/2025_10_12_000200_create_tasks_table.php:15 | a form that passes the `nullable` schedule rule without a schedule creates no task and dispatches nothing, because the column is NOT NULL |
| Tasks.StoreWithoutActiveFlagSendsNothing | app/Http/Controllers/Admin/TaskController.php:53-64 | a form without `is_active` creates an inactive task and dispatches nothing |
| TaskNotification.ExerciseLabel | app/Jobs/SendTaskNotification.php:61 | the exercise's title when present, else "Faith Exercise" |
| TaskNotification.TaskBody | app/Jobs/SendTaskNotification.php:63 | the body is the label, ": " (only for a truthy label) and the description joined, with only blanks at its two ends removed; it never starts or ends with a blank |
| TaskNotification.TaskDataShape | app/Jobs/SendTaskNotification.php:65-70 | the payload has exactly the keys type, task_id, exercise_id and schedule; the ids read back as the task's ids and a missing schedule is "" |
| TaskNotification.HandleJob | app/Jobs/SendTaskNotification.php:34-85 | the job sends exactly when the task exists, is active and has started; it sends one message to `all_users` with the task title, the composed body and the payload |
| TaskNotification.TrailingBlankTrimmed | app/Jobs/SendTaskNotification.php:63 | `trim` removes only the blank the separator leaves when there is no description |
| TaskNotification.DefaultBody | app/Jobs/SendTaskNotification.php:61-63 | with no exercise and no description the body is `Faith Exercise:` |
| TaskNotification.FalsyTitleBody | app/Jobs/SendTaskNotification.php:63 | an exercise title of "" or "0" adds no label and no separator: the body is the trimmed description |
| TaskNotification.TitledBody | app/Jobs/SendTaskNotification.php:63 | a label and a description without outer blanks are joined by ": " verbatim |
| TaskNotification.DispatchedJobSends | app/Jobs/SendTaskNotification.php:44-59 | a job for an active task that runs no earlier than creation decided passes every guard and sends |
| TaskNotification.InactiveTaskNeverSends | app/Jobs/SendTaskNotification.php:44-47 | an inactive task is never announced, whenever the job runs |
| TaskProgress.MakePeriodKey | app/Http/Controllers/TaskProgressController.php:12-25 | daily keys read back as the date of the given or current instant, weekly keys as its ISO week; every other period is keyed `single` |
| TaskProgress.SingleKeyIgnoresDate | app/Http/Controllers/TaskProgressController.php:14-16 | a single task has one key whatever the date |
| TaskProgress.DailyKeySameDayIff | app/Http/Controllers/TaskProgressController.php:17-20 | two instants share a daily key exactly when they fall on the same day |
| TaskProgress.WeeklyKeySameWeekIff | app/Http/Controllers/TaskProgressController.php:21-23 | two instants share a weekly key exactly when they fall in the same Monday-to-Sunday week |
| TaskProgress.WindowByDay | app/Http/Controllers/TaskProgressController.php:33-40 | being before the window's first second, or after its last, is being before the start day, or `duration_days` or more days after it |
| TaskProgress.AssertWithinDuration | app/Http/Controllers/TaskProgressController.php:27-44 | only daily ticks of tasks with a non-zero duration and a start date are checked; those pass exactly when the day is within [start, start + duration - 1]; failures are 422; a missing date becomes today |
| TaskProgress.DefaultDateKeepsKey | app/Http/Controllers/TaskProgressController.php:37-39 | filling in today's date for a missing date never changes the key |
| TaskProgress.ThreeDayWindow | app/Http/Controllers/TaskProgressController.php:32-42 | a three-day task accepts exactly its first, second and third day |
| TaskProgress.ResolveKey | app/Http/Controllers/TaskProgressController.php:48-54 | a request is accepted exactly when the period is valid and the date is in the window; the key is (user, task, period, period key) |
| TaskProgress.Toggle | app/Http/Controllers/TaskProgressController.php:46-72 | the tick is added (done) exactly when its key was absent, else removed; other entries are untouched; one entry per key is preserved |
| TaskProgress.Show | app/Http/Controllers/TaskProgressController.php:74-89 | reports whether the request's key is ticked, with the same rejections as toggle |
| TaskProgress.ShowAgreesWithToggle | app/Http/Controllers/TaskProgressController.php:74-89 | show reports the opposite of what toggle is about to do, and after a toggle reports its result |
| TaskProgress.ToggleTwice | app/Http/Controllers/TaskProgressController.php:55-71 | two toggles restore the set of ticked keys, and restore the ledger itself when the first one added the tick |
| Webhook.CallerUrl | app/Http/Middleware/VerifyWebhookSignature.php:36 | Origin when sent, else Referer, else "" |
| Webhook.DomainAllowed | app/Http/Middleware/VerifyWebhookSignature.php:39-45 | the host is allowed exactly when it equals some allowed domain or is a subdomain of one |
| Webhook.HostSuffixMatch | app/Http/Middleware/VerifyWebhookSignature.php:41 | a host ending in a domain name matches it exactly when the name is preceded by nothing or by a dot |
| Webhook.HostMatchExamples | app/Http/Middleware/VerifyWebhookSignature.php:41 | `api.example.com` matches `example.com`; `evilexample.com` does not |
| Webhook.Verify | app/Http/Middleware/VerifyWebhookSignature.php:19-94 | a request is admitted exactly when key, origin, freshness and signature all pass; a foreign origin with a good key is 403 "Forbidden domain"; a missing, falsy or wrong key is 401 "Unauthorized"; a stale timestamp is 401 "Request expired"; a bad signature is 401 "Invalid signature"; a key sent while none is configured is a server fault |
| Webhook.WrongKeyRefused | app/Http/Middleware/VerifyWebhookSignature.php:26-33 | a wrong or missing key is refused with 401 before anything else is looked at |
| Webhook.AdmittedRequestIsAuthentic | app/Http/Middleware/VerifyWebhookSignature.php:26-86 | an admitted request carries the configured key and, when both are present, a signature equal to the HMAC of `timestamp.body` |
| Webhook.ReplayWindowBoundary | app/Http/Middleware/VerifyWebhookSignature.php:58-72 | a timestamp 300 seconds old is accepted and one 301 seconds old is refused as expired |
| Webhook.OriginCases | app/Http/Middleware/VerifyWebhookSignature.php:36-55 | a call without Origin and Referer is never refused for its domain; with no allowed domains any named origin is refused |
| BlogNotification.BlogBody | app/Http/Controllers/BlogNotificationController.php:48-53 | the body is the title for an empty excerpt, otherwise the title, ": " and the first 100 characters of the tag-stripped excerpt |
| BlogNotification.BlogDataShape | app/Http/Controllers/BlogNotificationController.php:56-62 | the payload has exactly the keys type, post_id, url, title and image_url; post_id reads back and a missing image URL is "" |
| BlogNotification.Notify | app/Http/Controllers/BlogNotificationController.php:19-84 | invalid input is 422 without a send; valid input sends once to `all_users` titled "New Article" and answers 200 when the send succeeds, else 500 |
| BlogNotification.SuccessMeansDelivered | app/Http/Controllers/BlogNotificationController.php:65-83 | the answer is a success exactly when the post is valid, the service configured and the push accepted |
| CustomNotification.NotificationBody | app/Http/Controllers/Admin/CustomNotificationController.php:58 | the stored description when there is one; else the prefix of the tag-stripped content of length 100, or all of it when it is shorter |
| CustomNotification.BlankDescriptionFallsBack | resources/js/pages/admin/notifications/create.tsx:8 | the form's default empty (or blank) description reaches the controller as null, so the push shows the content excerpt |
| CustomNotification.NotificationDataShape | app/Http/Controllers/Admin/CustomNotificationController.php:52-56 | the payload has exactly the keys type, id and title, and the id reads back |
| CustomNotification.StoreNotification | app/Http/Controllers/Admin/CustomNotificationController.php:30-48 | a valid form appends the notification stamped `sent_at = now`, sends it once to `all_users` under its title, and flashes success |
| CustomNotification.ImageUrlNotSent | app/Http/Controllers/Admin/CustomNotificationController.php:60-66 | the image URL never reaches the push |
| CustomNotification.FlashIgnoresDelivery | app/Http/Controllers/Admin/CustomNotificationController.php:44-47 | the admin sees the same success message whether or not the push went out |
| Goals.TypeDisplayName | app/Models/UserGoal.php:58-67 | unknown goal types are shown with `ucfirst` |
| Goals.CategoryDisplayName | app/Models/UserGoal.php:72-83 | unknown categories are shown with `ucfirst` |
| Goals.TypeLabelsOfOptions | app/Models/UserGoal.php:42-67 | each of the four goal types has its fixed label, and no two types share one |
| Goals.CategoryLabelsOfOptions | app/Models/UserGoal.php:50-83 | each of the six categories has its fixed label, and no two categories share one |
| Goals.DaysRemaining | app/Models/UserGoal.php:96-99 | today plus the days remaining is the target date: negative exactly for past targets, zero exactly on the day |
| Goals.OverdueIffNoDaysLeft | app/Models/UserGoal.php:88-99 | an open goal is overdue exactly when its days remaining are negative |
| Goals.CompletedActivePartition | app/Models/UserGoal.php:120-131 | the completed and active scopes split the goals: each goal is in exactly one, and their sizes add up |
| Goals.OverdueScopeMatchesAttribute | app/Models/UserGoal.php:88-140 | the overdue scope selects exactly the goals whose `is_overdue` holds, and never more than the active scope |
| GoalController.FindOwned | app/Http/Controllers/UserGoalController.php:82 | finds the caller's goal with that id, or reports that the caller has none |
| GoalController.Store | app/Http/Controllers/UserGoalController.php:53-74 | created exactly when valid; owned by the caller; the form's target date, which is after today; progress defaults to 0 and lies in [0, 100]; completed only when sent true |
| GoalController.Show | app/Http/Controllers/UserGoalController.php:79-85 | found exactly when the caller owns a goal with that id, else 404 |
| GoalController.CompletionAfter | app/Http/Controllers/UserGoalController.php:105-108 | progress of 100 or more completes the goal; below that the sent flag decides; without one the state is kept |
| GoalController.Update | app/Http/Controllers/UserGoalController.php:90-113 | 404 before 422; only that goal changes; sent fields replace stored ones, others are kept, id and owner never change; completion follows the auto-complete rule |
| GoalController.UpdateProgress | app/Http/Controllers/UserGoalController.php:131-149 | 404 before 422; progress is required in [0, 100]; only progress and completion of that goal change |
| GoalController.PartialProgressKeepsCompletion | app/Http/Controllers/UserGoalController.php:136-146 | progress below 100 without a completion flag keeps the goal's completion, even when it was completed |
| GoalController.FullProgressCompletes | app/Http/Controllers/UserGoalController.php:141-144 | progress 100 completes the goal even when the request says it is not completed |
| GoalController.ToggleCompletion | app/Http/Controllers/UserGoalController.php:154-165 | flips completion; afterwards progress is 100 exactly when completed and 0 exactly when not; nothing else changes |
| GoalController.ToggleTwice | app/Http/Controllers/UserGoalController.php:159-162 | two toggles restore completion and leave progress at 100 or 0 accordingly |
| GoalController.Destroy | app/Http/Controllers/UserGoalController.php:118-126 | removes exactly the caller's goal, keeping the order of the rest; 404 otherwise |
| GoalController.DestroyedGoalIsGone | app/Http/Controllers/UserGoalController.php:121-123 | after deletion the goal can no longer be shown |
| GoalController.UpdateKeepsOtherUsers | app/Http/Controllers/UserGoalController.php:93 | an update never changes another user's goals |
| GoalController.UpdateProgressKeepsOtherUsers | app/Http/Controllers/UserGoalController.php:134 | a progress update never changes another user's goals |
| GoalController.ToggleKeepsOtherUsers | app/Http/Controllers/UserGoalController.php:157 | a toggle never changes another user's goals |
| GoalController.DestroyKeepsOtherUsers | app/Http/Controllers/UserGoalController.php:121 | a deletion never removes another user's goals |
| GoalController.ApplyFiltersCounts | app/Http/Controllers/UserGoalController.php:21-43 | the chained scopes keep a goal exactly when it passes every supplied filter |
| GoalController.Index | app/Http/Controllers/UserGoalController.php:16-48 | lists exactly the caller's goals that pass every supplied filter, overdue meaning `is_overdue`, sorted by target date ascending |
| GoalController.UnfilteredIndex | app/Http/Controllers/UserGoalController.php:19-45 | without filters the listing holds all of the caller's goals |
| GoalController.ValueHasRows | app/Http/Controllers/UserGoalController.php:193-202 | a value appears in a grouped column exactly when its group is not empty |
| GoalController.CountBy | app/Http/Controllers/UserGoalController.php:193-202 | grouping with a count: the keys are exactly the values with rows, each mapped to its number of rows |
| GoalController.GoalStatistics | app/Http/Controllers/UserGoalController.php:181-213 | total, completed, active and overdue are the sizes of the caller's goals and of its completed, active and overdue scopes; total = completed + active; overdue at most active; per-type and per-category counts of the caller's goals |
| Journal.Index | app/Http/Controllers/JournalController.php:10-28 | lists exactly the caller's entries within the inclusive date bounds and of the given task (0 meaning any), newest first |
| Journal.BoundsInclusive | app/Http/Controllers/JournalController.php:18-23 | entries dated exactly `from` or exactly `to` are listed |
| Journal.ZeroTaskIgnored | app/Http/Controllers/JournalController.php:24-26 | a task filter of 0 lists the same as no task filter |
| Journal.Store | app/Http/Controllers/JournalController.php:30-40 | a dated, non-empty entry is appended and always belongs to the caller |
| Journal.Update | app/Http/Controllers/JournalController.php:42-54 | unknown entries are 404; another user's are 403 before any validation; the owner's update succeeds iff the content is not sent empty, and empty content is 422; the sent fields replace the stored ones |
| Journal.Destroy | app/Http/Controllers/JournalController.php:56-63 | unknown entries are 404; another user's are 403; the owner's entry is removed and the rest keep their order |
| Journal.DestroyRemovesExactlyThat | app/Http/Controllers/JournalController.php:61 | after deletion the table holds every other entry and not that one |
| Journal.NonOwnerRefused | app/Http/Controllers/JournalController.php:42-63 | a non-owner's update or delete is refused with 403 whatever it carries |
| Reflections.Index | app/Http/Controllers/ReflectionController.php:10-19 | returns every reflection scheduled from today through today + 6 and none outside, in ascending date order |
| Reflections.AtMostOneWeek | database/migrations/2025_11_28_150000_create_reflections_table.php:19 | with one reflection per date the feed holds at most seven |
| Reflections.WindowEnds | app/Http/Controllers/ReflectionController.php:13-16 | today and the sixth day ahead are in the feed; yesterday and the seventh day ahead are not |

## Notes on the code

- **Task body.** A missing exercise or exercise title falls back to "Faith Exercise", so
  the label is always there. The `": "` separator is dropped only for a label of "" or "0"
  (PHP falsy). See `DefaultBody` and `FalsyTitleBody`.
- **Task schedule.** The store rules accept a missing `schedule`, but the `tasks.schedule`
  column is NOT NULL with no default. Such a request fails at the insert, with no task and
  no notification. See `Tasks.MissingScheduleFails`.
- **Progress toggles.** Two toggles racing on the same key are not handled specially. The
  model keeps only the one-entry-per-key invariant of the table's unique index.

## Left out

- HTTP transport, credentials and token minting (`FcmV1Service.php:73-99`) and logging.
  A connection failure inside `Http::post` is an exception nothing catches. The job then
  fails, and the blog controller answers with a framework 500. The model has no such
  outcome: every send ends with a status code.
  A send is the `Gateway` parameter: an optional project id, an optional access token and
  the status the endpoint answers.
- Queue mechanics. A dispatch is a returned `Dispatch` value, not a scheduled job.
- Concurrency between requests. Each handler is atomic, and the ledger's unique index
  appears as the `OneEntryPerKey` invariant.
- Date parsing and the `date` validation rule. Dates and instants arrive already parsed, as
  a `Day` or an `Instant` in one fixed timezone. A task's `start_date` is a date column, so
  its start is 00:00 of that day. Years before 1 are not represented.
- Request plumbing:
  - `$request->boolean()` parsing: `completed` and `overdue` arrive as booleans;
  - the global TrimStrings and ConvertEmptyStringsToNull middleware. Form fields are
    taken as the controllers receive them, after both have run. `Strings.InputField` models
    the pair, and `CustomNotification.BlankDescriptionFallsBack` applies it to the one
    field where it changes what is sent. The other forms do not pass their raw fields
    through it. So a model form may carry a title such as "  " that the application would
    have turned into null and rejected, or a value with outer blanks it would have trimmed;
  - the `exists:exercises,id` rule: a set of exercise ids is passed in;
  - the type rules `integer` and `string`. Fields arrive already of the type their rules
    demand, as `int` or `string`, and `None` means absent. A value of the wrong type is a
    422 the model does not represent. So is null sent for a field whose rule is not
    `nullable`, such as `progress` in goal store and update, which the model reads as
    absent (progress 0 on store, unchanged on update).
- The `options` endpoint returns the two constant lists, `TypeOptions` and
  `CategoryOptions`. There is no logic to prove.
- The order among rows with equal sort keys, which SQL leaves unspecified. The listings
  state order and contents but not the order among ties.
- GoalStatistics: `completion_rate` is floating-point rounding and is not modelled.
- Webhook.Verify: `abs()` of the time difference is on unbounded integers. PHP's 64-bit
  overflow for absurd timestamps is not modelled. `hash_equals` is modelled as equality,
  without its timing behaviour.
- CustomNotification.NotificationBody: `substr` counts bytes. The model counts characters,
  so for non-ASCII content the cut may fall at a different place. Worse, a cut inside a
  multi-byte character leaves invalid UTF-8. The JSON encoding of the push request then
  throws, nothing catches the exception, and the admin gets a 500 instead of the success
  flash, although the notification row is already stored. The model has no such outcome.
  `FlashIgnoresDelivery` covers only sends that end with a status code.
- TaskProgress.Toggle: requires at most one ledger entry per key, as the table's unique
  index guarantees. A ledger that violates the index is outside the model.
- Goal lookups with a type or category filter sent as null (a PHP type error) are not
  modelled: a filter is either absent or a string.

=== FILE: blog_notification.dfy ===
/** The endpoint the blog calls when a post is published: it validates the post, announces it
    to every user with one push, and answers 200 or 500 according to the push result.
    `isUrl` is the framework's `url` validation rule and `stripTags` PHP's `strip_tags`. */
module BlogNotification {

  import opened Wrappers
  import opened Strings
  import opened Fcm

  const PushTitle: string := "New Article"
  const ExcerptLength: nat := 100

  /** The request fields; each may be missing. */
  datatype BlogPost = BlogPost(
    postId: Option<int>,
    title: Option<string>,
    excerpt: Option<string>,
    url: Option<string>,
    imageUrl: Option<string>)

  datatype Response = Response(status: nat, success: bool)

  /** The HTTP answer and, when the post passed validation, the one send it made. */
  datatype Outcome = Outcome(response: Response, delivery: Option<Delivery>)

  /** post_id required integer; title required, at most 255 characters; excerpt at most 500;
      url required and a URL; image_url a URL when given. */
  predicate ValidPost(post: BlogPost, isUrl: string -> bool) {
    && post.postId.Some?
    && post.title.Some? && post.title.value != "" && |post.title.value| <= 255
    && (post.excerpt.None? || |post.excerpt.value| <= 500)
    && post.url.Some? && post.url.value != "" && isUrl(post.url.value)
    && (post.imageUrl.None? || isUrl(post.imageUrl.value))
  }

  /** The post title, followed by ": " and at most the first 100 characters of the
      tag-stripped excerpt when the excerpt is not empty in PHP's sense. */
  function BlogBody(title: string, excerpt: Option<string>, stripTags: string -> string): (body: string)
    ensures title <= body
    ensures excerpt.None? || !Truthy(excerpt.value) ==> body == title
    ensures excerpt.Some? && Truthy(excerpt.value) ==>
      var stripped := stripTags(excerpt.value);
      && |body| >= |title| + 2
      && body[..|title| + 2] == title + ": "
      && body[|title| + 2..] <= stripped
      && |body| - |title| - 2 == if |stripped| < ExcerptLength then |stripped| else ExcerptLength
  {
    if excerpt.Some? && Truthy(excerpt.value) then
      var part := Take(stripTags(excerpt.value), ExcerptLength);
      var body := title + ": " + part;
      assert body[|title| + 2..] == part;
      body
    else title
  }

  function BlogData(postId: int, title: string, url: string, imageUrl: Option<string>): map<string, Value> {
    map[
      "type" := VString("blog"),
      "post_id" := VString(IntToString(postId)),
      "url" := VString(url),
      "title" := VString(title),
      "image_url" := VString(imageUrl.GetOr(""))
    ]
  }

  /** The payload has exactly five string entries; post_id reads back as the post's id. */
  lemma BlogDataShape(postId: int, title: string, url: string, imageUrl: Option<string>)
    ensures var out := StringifyData(BlogData(postId, title, url, imageUrl));
      && out.Keys == {"type", "post_id", "url", "title", "image_url"}
      && out["type"] == "blog"
      && ParseInt(out["post_id"]) == Some(postId)
      && out["url"] == url && out["title"] == title
      && out["image_url"] == imageUrl.GetOr("")
  {
    IntToStringRoundTrip(postId);
  }

  function Notify(post: BlogPost, isUrl: string -> bool, stripTags: string -> string, gw: Gateway): (o: Outcome)
    ensures !ValidPost(post, isUrl) ==> o == Outcome(Response(422, false), None)
    ensures ValidPost(post, isUrl) ==>
      && o.delivery.Some?
      && (o.response == if o.delivery.value.ok then Response(200, true) else Response(500, false))
      && (o.delivery.value.posted.Some? <==> Configured(gw))
    ensures ValidPost(post, isUrl) && o.delivery.value.posted.Some? ==>
      var m := o.delivery.value.posted.value;
      && m.target == Topic(BroadcastTopic)
      && m.title == PushTitle
      && m.body == BlogBody(post.title.value, post.excerpt, stripTags)
      && m.data == StringifyData(BlogData(post.postId.value, post.title.value, post.url.value, post.imageUrl))
  {
    if !ValidPost(post, isUrl) then Outcome(Response(422, false), None)
    else
      var body := BlogBody(post.title.value, post.excerpt, stripTags);
      var data := BlogData(post.postId.value, post.title.value, post.url.value, post.imageUrl);
      var d := SendToTopic(gw, BroadcastTopic, PushTitle, body, data);
      Outcome(if d.ok then Response(200, true) else Response(500, false), Some(d))
  }

  /** The answer is 200 exactly when the push endpoint accepted the message. */
  lemma SuccessMeansDelivered(post: BlogPost, isUrl: string -> bool, stripTags: string -> string, gw: Gateway)
    ensures Notify(post, isUrl, stripTags, gw).response.success
        <==> ValidPost(post, isUrl) && Configured(gw)
             && Successful(gw.status(Notify(post, isUrl, stripTags, gw).delivery.value.posted.value))
  {
  }
}

=== FILE: calendar.dfy ===
/** Calendar arithmetic for the application's single timezone.

    A `Day` numbers the days of the proleptic Gregorian calendar from 0001-01-01 (day 0, a
    Monday); an `Instant` counts seconds from 0001-01-01 00:00:00. Conversions to civil dates
    (year, month, day) and to ISO 8601 week dates are defined here and proved to be exact
    inverses, together with the two string forms the ledger uses as period keys:
    `YYYY-MM-DD` (PHP format `Y-m-d`) and `YYYY-Www` (PHP format `o-\WW`). */
module Calendar {

  import opened Wrappers
  import opened Strings

  type Day = nat
  type Instant = nat

  const SecondsPerDay: nat := 86400

  /** The calendar day an instant falls on. */
  function DayOf(t: Instant): Day {
    t / SecondsPerDay
  }

  /** 00:00:00 of a day (Carbon's `startOfDay`, and what parsing a bare date yields). */
  function StartOfDay(d: Day): Instant {
    d * SecondsPerDay
  }

  lemma DayOfStartOfDay(d: Day)
    ensures DayOf(StartOfDay(d)) == d
  {
  }

  /** An instant lies on day d exactly when it is between d's first and last second. */
  lemma DayOfBounds(t: Instant, d: Day)
    ensures DayOf(t) < d <==> t < StartOfDay(d)
    ensures DayOf(t) > d <==> t > StartOfDay(d) + SecondsPerDay - 1
  {
  }

  // ---------------------------------------------------------------------------
  // Civil dates

  datatype Date = Date(year: int, month: int, day: int)

  predicate IsLeapYear(y: int) {
    y % 4 == 0 && (y % 100 != 0 || y % 400 == 0)
  }

  function DaysInYear(y: int): nat {
    if IsLeapYear(y) then 366 else 365
  }

  function DaysInMonth(y: int, m: int): nat
    requires 1 <= m <= 12
  {
    if m == 2 then (if IsLeapYear(y) then 29 else 28)
    else if m == 4 || m == 6 || m == 9 || m == 11 then 30
    else 31
  }

  predicate ValidDate(d: Date) {
    && d.year >= 1
    && 1 <= d.month <= 12
    && 1 <= d.day <= DaysInMonth(d.year, d.month)
  }

  /** Days from 0001-01-01 to January 1st of year y. */
  function DaysBeforeYear(y: int): nat
    requires y >= 1
  {
    var x := y - 1;
    365 * x + x / 4 - x / 100 + x / 400
  }

  /** Days from January 1st to the first of month m of year y; month 13 stands for
      the next January 1st. */
  function DaysBeforeMonth(y: int, m: int): nat
    requires 1 <= m <= 13
  {
    var common :=
      if m == 1 then 0 else if m == 2 then 31 else if m == 3 then 59
      else if m == 4 then 90 else if m == 5 then 120 else if m == 6 then 151
      else if m == 7 then 181 else if m == 8 then 212 else if m == 9 then 243
      else if m == 10 then 273 else if m == 11 then 304 else if m == 12 then 334
      else 365;
    common + if m > 2 && IsLeapYear(y) then 1 else 0
  }

  lemma DaysBeforeMonthStep(y: int, m: int)
    requires 1 <= m <= 12
    ensures DaysBeforeMonth(y, m + 1) == DaysBeforeMonth(y, m) + DaysInMonth(y, m)
    ensures DaysBeforeMonth(y, 13) == DaysInYear(y)
  {
  }

  lemma DaysBeforeMonthMonotone(y: int, a: int, b: int)
    requires 1 <= a <= b <= 13
    ensures DaysBeforeMonth(y, a) <= DaysBeforeMonth(y, b)
  {
  }

  /** Consecutive years are DaysInYear apart: the closed form counts leap years right. */
  lemma DaysBeforeYearStep(y: int)
    requires y >= 1
    ensures DaysBeforeYear(y + 1) == DaysBeforeYear(y) + DaysInYear(y)
  {
    var x := y - 1;
    assert (x + 1) / 4 - x / 4 == if y % 4 == 0 then 1 else 0;
    assert (x + 1) / 100 - x / 100 == if y % 100 == 0 then 1 else 0;
    assert (x + 1) / 400 - x / 400 == if y % 400 == 0 then 1 else 0;
  }

  lemma {:induction false} DaysBeforeYearMonotone(a: int, b: int)
    requires 1 <= a <= b
    ensures DaysBeforeYear(a) + 365 * (b - a) <= DaysBeforeYear(b)
    decreases b - a
  {
    if a < b {
      DaysBeforeYearMonotone(a, b - 1);
      DaysBeforeYearStep(b - 1);
    }
  }

  /** The calendar repeats every 400 years, which have 146097 days. */
  lemma CycleShift(y: int, q: nat)
    requires y >= 1
    ensures DaysBeforeYear(y + 400 * q) == DaysBeforeYear(y) + 146097 * q
  {
    var x := y - 1;
    assert (x + 400 * q) / 4 == x / 4 + 100 * q;
    assert (x + 400 * q) / 100 == x / 100 + 4 * q;
    assert (x + 400 * q) / 400 == x / 400 + q;
  }

  /** Year y, day-of-year offset and month m locate a day: these bracket predicates say
      which year and which month a day (offset) falls in. */
  predicate InYear(n: int, y: int)
    requires y >= 1
  {
    DaysBeforeYear(y) <= n < DaysBeforeYear(y + 1)
  }

  predicate InMonth(y: int, offset: int, m: int)
    requires 1 <= m <= 12
  {
    DaysBeforeMonth(y, m) <= offset < DaysBeforeMonth(y, m + 1)
  }

  lemma YearUnique(n: int, y1: int, y2: int)
    requires y1 >= 1 && y2 >= 1 && InYear(n, y1) && InYear(n, y2)
    ensures y1 == y2
  {
    if y1 < y2 {
      DaysBeforeYearMonotone(y1 + 1, y2);
    } else if y2 < y1 {
      DaysBeforeYearMonotone(y2 + 1, y1);
    }
  }

  lemma MonthUnique(y: int, offset: int, m1: int, m2: int)
    requires 1 <= m1 <= 12 && 1 <= m2 <= 12 && InMonth(y, offset, m1) && InMonth(y, offset, m2)
    ensures m1 == m2
  {
    if m1 < m2 {
      DaysBeforeMonthMonotone(y, m1 + 1, m2);
    } else if m2 < m1 {
      DaysBeforeMonthMonotone(y, m2 + 1, m1);
    }
  }

  /** Linear search for the year, within one 400-year cycle, that holds offset r. */
  function YearInCycle(r: int, y: int): (y': int)
    requires 1 <= y <= 400 && DaysBeforeYear(y) <= r < 146097
    ensures y <= y' <= 400 && InYear(r, y')
    decreases 400 - y
  {
    if r < DaysBeforeYear(y + 1) then y else YearInCycle(r, y + 1)
  }

  /** The year day n falls in. */
  function YearOf(n: Day): (y: int)
    ensures y >= 1
  {
    YearInCycle(n % 146097, 1) + 400 * (n / 146097)
  }

  lemma YearOfInYear(n: Day)
    ensures InYear(n, YearOf(n))
  {
    var q := n / 146097;
    var y0 := YearInCycle(n % 146097, 1);
    CycleShift(y0, q);
    CycleShift(y0 + 1, q);
  }

  /** Linear search for the month that holds a day-of-year offset. */
  function MonthOf(y: int, offset: int, m: int): (m': int)
    requires 1 <= m <= 12 && DaysBeforeMonth(y, m) <= offset < DaysInYear(y)
    ensures m <= m' <= 12 && InMonth(y, offset, m')
    decreases 12 - m
  {
    DaysBeforeMonthStep(y, m);
    if m == 12 || offset < DaysBeforeMonth(y, m + 1) then m else MonthOf(y, offset, m + 1)
  }

  /** The day number of a civil date. */
  function DateToDay(d: Date): Day
    requires ValidDate(d)
  {
    DaysBeforeYear(d.year) + DaysBeforeMonth(d.year, d.month) + d.day - 1
  }

  /** The civil date of a day number. */
  function DayToDate(n: Day): (d: Date)
    ensures ValidDate(d) && DateToDay(d) == n
  {
    var y := YearOf(n);
    YearOfInYear(n);
    DaysBeforeYearStep(y);
    var offset := n - DaysBeforeYear(y);
    var m := MonthOf(y, offset, 1);
    DaysBeforeMonthStep(y, m);
    Date(y, m, offset - DaysBeforeMonth(y, m) + 1)
  }

  /** Every valid civil date is reached exactly once. */
  lemma DateRoundTrip(d: Date)
    requires ValidDate(d)
    ensures DayToDate(DateToDay(d)) == d
  {
    var n := DateToDay(d);
    var e := DayToDate(n);
    DaysBeforeMonthStep(d.year, d.month);
    DaysBeforeMonthMonotone(d.year, d.month + 1, 13);
    DaysBeforeMonthStep(d.year, 12);
    DaysBeforeYearStep(d.year);
    YearOfInYear(n);
    YearUnique(n, d.year, e.year);
    DaysBeforeMonthStep(e.year, e.month);
    MonthUnique(d.year, n - DaysBeforeYear(d.year), d.month, e.month);
  }

  // ---------------------------------------------------------------------------
  // ISO 8601 weeks

  /** ISO weekday: 1 = Monday ... 7 = Sunday. Day 0 (0001-01-01) is a Monday. */
  function IsoWeekday(n: Day): int {
    n % 7 + 1
  }

  /** Weeks run Monday to Sunday; week k, counted from day 0, holds days 7k .. 7k + 6. */
  function WeekIndex(n: Day): nat {
    n / 7
  }

  /** The Monday that starts the week containing day n. */
  function WeekStart(n: Day): (monday: Day)
    ensures IsoWeekday(monday) == 1
    ensures monday <= n < monday + 7
  {
    7 * WeekIndex(n)
  }

  datatype IsoWeek = IsoWeek(year: int, week: int)

  /** The ISO week-numbering year and week of day n: a week belongs to the year that holds its
      Thursday, and is numbered from the week holding that year's first Thursday. */
  function IsoWeekOf(n: Day): (w: IsoWeek)
    ensures w.year >= 1 && 1 <= w.week <= 53
  {
    WeekOfThursday(ThursdayOf(n))
  }

  /** The Thursday of the week containing day n. */
  function ThursdayOf(n: Day): Day {
    7 * WeekIndex(n) + 3
  }

  /** The ISO week whose Thursday is day t. */
  function WeekOfThursday(t: Day): (w: IsoWeek)
    ensures w.year >= 1 && 1 <= w.week <= 53
    ensures w.year == YearOf(t) && (t - DaysBeforeYear(w.year)) / 7 == w.week - 1
  {
    var y := YearOf(t);
    YearOfInYear(t);
    DaysBeforeYearStep(y);
    IsoWeek(y, (t - DaysBeforeYear(y)) / 7 + 1)
  }

  /** Integer division by 7 locates x in a block of seven. */
  lemma DivSeven(x: int)
    ensures 7 * (x / 7) <= x < 7 * (x / 7) + 7
  {
  }

  /** Different weeks have Thursdays in different ISO weeks. */
  lemma WeekOfThursdayInjective(i: nat, j: nat)
    requires WeekOfThursday(7 * i + 3) == WeekOfThursday(7 * j + 3)
    ensures i == j
  {
    var w := WeekOfThursday(7 * i + 3);
    var base := DaysBeforeYear(w.year);
    DivSeven(7 * i + 3 - base);
    DivSeven(7 * j + 3 - base);
    assert -7 < 7 * i - 7 * j < 7;
  }

  /** The ISO week of a day is the ISO week of its week's Thursday. */
  lemma IsoWeekOfThursday(a: Day)
    ensures IsoWeekOf(a) == WeekOfThursday(7 * WeekIndex(a) + 3)
  {
  }

  /** Days of one week share its Thursday, hence its ISO week. */
  lemma SameWeekSameIsoWeek(a: Day, b: Day)
    requires WeekIndex(a) == WeekIndex(b)
    ensures IsoWeekOf(a) == IsoWeekOf(b)
  {
    assert ThursdayOf(a) == ThursdayOf(b);
  }

  /** Days of different weeks have different Thursdays, hence different ISO weeks. */
  lemma SameIsoWeekSameWeek(a: Day, b: Day)
    requires IsoWeekOf(a) == IsoWeekOf(b)
    ensures WeekIndex(a) == WeekIndex(b)
  {
    IsoWeekOfThursday(a);
    IsoWeekOfThursday(b);
    WeekOfThursdayInjective(WeekIndex(a), WeekIndex(b));
  }

  /** Two days share an ISO week exactly when they share a Monday-to-Sunday week. */
  lemma IsoWeekOfSameWeekIff(a: Day, b: Day)
    ensures IsoWeekOf(a) == IsoWeekOf(b) <==> WeekIndex(a) == WeekIndex(b)
  {
    if WeekIndex(a) == WeekIndex(b) {
      SameWeekSameIsoWeek(a, b);
    }
    if IsoWeekOf(a) == IsoWeekOf(b) {
      SameIsoWeekSameWeek(a, b);
    }
  }

  /** A Thursday in the first seven days of year y is in week 1 of ISO year y. */
  lemma WeekOfEarlyThursday(t: Day, y: int)
    requires y >= 1 && DaysBeforeYear(y) <= t <= DaysBeforeYear(y) + 6
    ensures WeekOfThursday(t) == IsoWeek(y, 1)
  {
    DaysBeforeYearStep(y);
    YearOfInYear(t);
    YearUnique(t, y, YearOf(t));
  }

  /** Week 1 of ISO year y is the week that contains January 4th of y. */
  lemma IsoWeekOfJanuaryFourth(y: int)
    requires y >= 1
    ensures IsoWeekOf(DateToDay(Date(y, 1, 4))) == IsoWeek(y, 1)
  {
    var n := DateToDay(Date(y, 1, 4));
    assert n == DaysBeforeYear(y) + 3;
    IsoWeekOfThursday(n);
    var thursday := 7 * WeekIndex(n) + 3;
    assert n - 3 <= thursday <= n + 3;
    WeekOfEarlyThursday(thursday, y);
  }

  // ---------------------------------------------------------------------------
  // Period key strings

  /** PHP `Y-m-d`: the year zero-padded to at least four digits, month and day to two. */
  function DateString(d: Date): string
    requires ValidDate(d)
  {
    Pad(d.year, 4) + "-" + Pad(d.month, 2) + "-" + Pad(d.day, 2)
  }

  /** Reads a `Y-m-d` string back; None when it does not have that shape. */
  function ParseDateString(s: string): Option<Date> {
    if && |s| >= 7
       && s[|s| - 6] == '-' && s[|s| - 3] == '-'
       && AllDigits(s[..|s| - 6]) && AllDigits(s[|s| - 5..|s| - 3]) && AllDigits(s[|s| - 2..])
    then Some(Date(ParseNat(s[..|s| - 6]), ParseNat(s[|s| - 5..|s| - 3]), ParseNat(s[|s| - 2..])))
    else None
  }

  /** Where the fields of a `Y-m-d` string sit when month and day have two digits. */
  lemma DateStringFields(y: string, m: string, d: string)
    requires |m| == 2 && |d| == 2
    ensures var s := y + "-" + m + "-" + d;
      && |s| == |y| + 6
      && s[|s| - 6] == '-' && s[|s| - 3] == '-'
      && s[..|s| - 6] == y && s[|s| - 5..|s| - 3] == m && s[|s| - 2..] == d
  {
  }

  lemma DateStringRoundTrip(d: Date)
    requires ValidDate(d)
    ensures ParseDateString(DateString(d)) == Some(d)
  {
    DateStringFields(Pad(d.year, 4), Pad(d.month, 2), Pad(d.day, 2));
    PadRoundTrip(d.year, 4);
    PadRoundTrip(d.month, 2);
    PadRoundTrip(d.day, 2);
  }

  /** PHP `o-\WW`: the ISO year unpadded, a literal `-W`, the week zero-padded to two digits. */
  function WeekString(w: IsoWeek): string
    requires w.year >= 1 && 1 <= w.week <= 53
  {
    NatToString(w.year) + "-W" + Pad(w.week, 2)
  }

  /** Reads an `o-\WW` string back; None when it does not have that shape. */
  function ParseWeekString(s: string): Option<IsoWeek> {
    if && |s| >= 5
       && s[|s| - 4] == '-' && s[|s| - 3] == 'W'
       && AllDigits(s[..|s| - 4]) && AllDigits(s[|s| - 2..])
    then Some(IsoWeek(ParseNat(s[..|s| - 4]), ParseNat(s[|s| - 2..])))
    else None
  }

  /** Where the fields of an `o-\WW` string sit when the week has two digits. */
  lemma WeekStringFields(y: string, w: string)
    requires |w| == 2
    ensures var s := y + "-W" + w;
      && |s| == |y| + 4
      && s[|s| - 4] == '-' && s[|s| - 3] == 'W'
      && s[..|s| - 4] == y && s[|s| - 2..] == w
  {
  }

  lemma WeekStringRoundTrip(w: IsoWeek)
    requires w.year >= 1 && 1 <= w.week <= 53
    ensures ParseWeekString(WeekString(w)) == Some(w)
  {
    WeekStringFields(NatToString(w.year), Pad(w.week, 2));
    NatToStringRoundTrip(w.year);
    PadRoundTrip(w.week, 2);
  }

  /** The daily period key of a day: its `Y-m-d` date. */
  function DailyKey(n: Day): (key: string)
    ensures ParseDateString(key) == Some(DayToDate(n))
  {
    DateStringRoundTrip(DayToDate(n));
    DateString(DayToDate(n))
  }

  /** The weekly period key of a day: its ISO week in `o-\WW` form. */
  function WeeklyKey(n: Day): (key: string)
    ensures ParseWeekString(key) == Some(IsoWeekOf(n))
  {
    WeekStringRoundTrip(IsoWeekOf(n));
    WeekString(IsoWeekOf(n))
  }

  /** Distinct days never share a daily key. */
  lemma DailyKeyInjective(a: Day, b: Day)
    ensures DailyKey(a) == DailyKey(b) <==> a == b
  {
    if DailyKey(a) == DailyKey(b) {
      assert DayToDate(a) == DayToDate(b);
    }
  }

  /** Days in the same Monday-to-Sunday week share a weekly key; days in different weeks
      never do. */
  lemma WeeklyKeySameWeekIff(a: Day, b: Day)
    ensures WeeklyKey(a) == WeeklyKey(b) <==> WeekIndex(a) == WeekIndex(b)
  {
    IsoWeekOfSameWeekIff(a, b);
    if WeeklyKey(a) == WeeklyKey(b) {
      assert IsoWeekOf(a) == IsoWeekOf(b);
    }
  }

  /** 2024-12-30 is the Monday of the week holding 2025-01-04, so it belongs to 2025's first
      ISO week. */
  lemma WeeklyKeyYearBoundary()
    ensures WeeklyKey(DateToDay(Date(2024, 12, 30))) == "2025-W01"
  {
    var monday := DateToDay(Date(2024, 12, 30));
    var saturday := DateToDay(Date(2025, 1, 4));
    YearBoundaryDays();
    SameWeekSameIsoWeek(monday, saturday);
    IsoWeekOfJanuaryFourth(2025);
    assert IsoWeekOf(monday) == IsoWeek(2025, 1);
    YearBoundaryText();
  }

  /** 2024-12-30 and 2025-01-04 are the Monday and the Saturday of one week. */
  lemma YearBoundaryDays()
    ensures DateToDay(Date(2024, 12, 30)) == 7 * 105607
    ensures DateToDay(Date(2025, 1, 4)) == 7 * 105607 + 5
  {
    assert DaysBeforeYear(2024) == 738885;
    assert DaysBeforeYear(2025) == 739251;
  }

  lemma YearBoundaryText()
    ensures WeekString(IsoWeek(2025, 1)) == "2025-W01"
  {
    assert NatToString(20) == "20";
    assert NatToString(2025) == "2025";
    assert NatToString(1) == "1";
    assert Pad(1, 2) == "01";
  }

  /** 2025-01-01 (a Wednesday) and 2025-01-05 (the Sunday after) share a weekly key; the
      Monday 2025-01-06 starts a new one. */
  lemma WeeklyKeyWeekBoundary(wednesday: Day, sunday: Day, monday: Day)
    requires wednesday == DateToDay(Date(2025, 1, 1))
    requires sunday == DateToDay(Date(2025, 1, 5))
    requires monday == DateToDay(Date(2025, 1, 6))
    ensures WeeklyKey(wednesday) == WeeklyKey(sunday)
    ensures WeeklyKey(sunday) != WeeklyKey(monday)
  {
    assert WeekIndex(wednesday) == WeekIndex(sunday);
    assert WeekIndex(sunday) != WeekIndex(monday);
    WeeklyKeySameWeekIff(wednesday, sunday);
    WeeklyKeySameWeekIff(sunday, monday);
  }

  /** The daily key of a date's day number is that date written `Y-m-d`. */
  lemma DailyKeyOfDate(d: Date, n: Day)
    requires ValidDate(d) && n == DateToDay(d)
    ensures DailyKey(n) == DateString(d)
  {
    DateRoundTrip(d);
  }

  /** Month and day are zero-padded to two digits. */
  lemma DateStringExample()
    ensures DateString(Date(2025, 1, 1)) == "2025-01-01"
  {
    assert NatToString(20) == "20";
    assert NatToString(2025) == "2025";
    assert Pad(2025, 4) == "2025";
    assert NatToString(1) == "1";
    assert Pad(1, 2) == "01";
  }
}

=== FILE: custom_notification.dfy ===
/** Custom announcements written in the admin panel. Storing one records it with the time it
    was sent, pushes it to every user once, and redirects with a success message whatever
    the push result. */
module CustomNotification {

  import opened Wrappers
  import opened Strings
  import opened Calendar
  import opened Fcm

  const BodyLength: nat := 100
  const SuccessFlash: string := "Notification created and sent."

  datatype Notification = Notification(
    id: nat,
    title: string,
    description: Option<string>,
    content: string,
    imageUrl: Option<string>,
    sentAt: Instant)

  /** The admin form; each field may be missing. */
  datatype NotificationForm = NotificationForm(
    title: Option<string>,
    description: Option<string>,
    content: Option<string>,
    imageUrl: Option<string>)

  /** title required, at most 255 characters; description at most 255; content required. */
  predicate ValidForm(form: NotificationForm) {
    && form.title.Some? && form.title.value != "" && |form.title.value| <= 255
    && (form.description.None? || |form.description.value| <= 255)
    && form.content.Some? && form.content.value != ""
  }

  /** The stored description when there is one, else the first `BodyLength` characters of the
      tag-stripped content. */
  function NotificationBody(n: Notification, stripTags: string -> string): (body: string)
    ensures n.description.Some? ==> body == n.description.value
    ensures n.description.None? ==> body <= stripTags(n.content)
    ensures n.description.None? ==>
      |body| == if |stripTags(n.content)| < BodyLength then |stripTags(n.content)| else BodyLength
  {
    match n.description
    case Some(d) => d
    case None => Take(stripTags(n.content), BodyLength)
  }

  /** The create form sends an empty or blank description by default; the middleware turns
      it into null, so the push shows the content excerpt instead. */
  lemma BlankDescriptionFallsBack(n: Notification, raw: string, stripTags: string -> string)
    requires AllTrimChars(raw) && n.description == InputField(Some(raw))
    ensures NotificationBody(n, stripTags) == Take(stripTags(n.content), BodyLength)
  {
  }

  function NotificationData(n: Notification): map<string, Value> {
    map[
      "type" := VString("custom_notification"),
      "id" := VString(IntToString(n.id)),
      "title" := VString(n.title)
    ]
  }

  /** The payload has exactly three string entries; id reads back as the notification's id. */
  lemma NotificationDataShape(n: Notification)
    ensures var out := StringifyData(NotificationData(n));
      && out.Keys == {"type", "id", "title"}
      && out["type"] == "custom_notification"
      && ParseInt(out["id"]) == Some(n.id as int)
      && out["title"] == n.title
  {
    IntToStringRoundTrip(n.id);
  }

  datatype Stored = Stored(notification: Notification, table: seq<Notification>, delivery: Delivery, flash: string)

  /** Appends the new row (id `nextId`, `sentAt = now`) to `table`, then sends it to the
      broadcast topic. The image URL is stored but not sent: the send takes no image. */
  function StoreNotification(table: seq<Notification>, form: NotificationForm, nextId: nat, now: Instant,
                             stripTags: string -> string, gw: Gateway): (r: Result<Stored>)
    ensures r.Ok? <==> ValidForm(form)
    ensures r.Err? ==> r.failure == ValidationFailed
    ensures r.Ok? ==> var n := r.value.notification;
      && n == Notification(nextId, form.title.value, form.description, form.content.value, form.imageUrl, now)
      && r.value.table == table + [n]
      && r.value.flash == SuccessFlash
      && (r.value.delivery.posted.Some? <==> Configured(gw))
      && (r.value.delivery.posted.Some? ==>
            r.value.delivery.posted.value
              == Message(Topic(BroadcastTopic), n.title, NotificationBody(n, stripTags), StringifyData(NotificationData(n))))
  {
    if !ValidForm(form) then Err(ValidationFailed) else
    var n := Notification(nextId, form.title.value, form.description, form.content.value, form.imageUrl, now);
    var d := SendToTopic(gw, BroadcastTopic, n.title, NotificationBody(n, stripTags), NotificationData(n));
    Ok(Stored(n, table + [n], d, SuccessFlash))
  }

  /** Two forms that differ only in the image URL produce the same push. */
  lemma ImageUrlNotSent(table: seq<Notification>, form: NotificationForm, otherImage: Option<string>,
                        nextId: nat, now: Instant, stripTags: string -> string, gw: Gateway)
    requires ValidForm(form)
    ensures StoreNotification(table, form, nextId, now, stripTags, gw).value.delivery
         == StoreNotification(table, form.(imageUrl := otherImage), nextId, now, stripTags, gw).value.delivery
  {
  }

  /** The admin sees the same success message whether or not the push went out. */
  lemma FlashIgnoresDelivery(table: seq<Notification>, form: NotificationForm, nextId: nat, now: Instant,
                             stripTags: string -> string, gw1: Gateway, gw2: Gateway)
    requires ValidForm(form)
    ensures StoreNotification(table, form, nextId, now, stripTags, gw1).value.flash
         == StoreNotification(table, form, nextId, now, stripTags, gw2).value.flash
  {
  }
}

=== FILE: fcm.dfy ===
/** The push-notification service: it builds an HTTP v1 message for a topic or a device token
    and posts it. Configuration, credentials and the HTTP round trip are abstract: a Gateway
    says whether a project id and an access token are available, and which status code the
    push endpoint answers for a given message. */
module Fcm {

  import opened Wrappers
  import opened Strings

  /** A PHP value placed in a data payload. A composite value (array or object) carries the
      text `json_encode` produces for it, which this model does not compute. */
  datatype Value =
    | VString(s: string)
    | VInt(i: int)
    | VBool(b: bool)
    | VNull
    | VComposite(json: string)

  /** Data values must be strings: scalars go through PHP's `(string)` cast, everything else
      through `json_encode`. */
  function StringifyValue(v: Value): (s: string)
    ensures v.VString? ==> s == v.s
    ensures v.VInt? ==> ParseInt(s) == Some(v.i)
    ensures v.VBool? ==> (s == "1" <==> v.b) && (s == "" <==> !v.b)
    ensures v.VNull? ==> s == "null"
    ensures v.VComposite? ==> s == v.json
  {
    match v
    case VString(s) => s
    case VInt(i) => IntToStringRoundTrip(i); IntToString(i)
    case VBool(b) => if b then "1" else ""
    case VNull => "null"
    case VComposite(json) => json
  }

  function StringifyData(data: map<string, Value>): (out: map<string, string>)
    ensures out.Keys == data.Keys
    ensures forall k :: k in data ==> out[k] == StringifyValue(data[k])
  {
    map k | k in data :: StringifyValue(data[k])
  }

  /** A payload made only of strings passes through unchanged. */
  lemma StringifyStrings(data: map<string, Value>, plain: map<string, string>)
    requires data.Keys == plain.Keys
    requires forall k :: k in data ==> data[k] == VString(plain[k])
    ensures StringifyData(data) == plain
  {
  }

  /** Every integer in a payload can be read back from its string form. */
  lemma StringifyIntegersRoundTrip(data: map<string, Value>, k: string)
    requires k in data && data[k].VInt?
    ensures k in StringifyData(data) && ParseInt(StringifyData(data)[k]) == Some(data[k].i)
  {
  }

  datatype Target = Topic(topic: string) | Token(token: string)

  /** The topic every app installation subscribes to. */
  const BroadcastTopic: string := "all_users"

  /** An HTTP v1 message: one recipient, a notification title and body, and string data. */
  datatype Message = Message(target: Target, title: string, body: string, data: map<string, string>)

  /** projectId: the configured project id; accessToken: the token minted from the service
      account credentials, absent when they are missing or unusable; status: the HTTP status
      the push endpoint answers for a message. */
  datatype Gateway = Gateway(projectId: Option<string>, accessToken: Option<string>, status: Message -> nat)

  /** What a send did: the message it posted, if any, and the boolean it returned. */
  datatype Delivery = Delivery(posted: Option<Message>, ok: bool)

  predicate Configured(gw: Gateway) {
    && gw.projectId.Some? && Truthy(gw.projectId.value)
    && gw.accessToken.Some? && Truthy(gw.accessToken.value)
  }

  /** Laravel's `successful()`: a 2xx status. */
  predicate Successful(status: nat) {
    200 <= status < 300
  }

  /** Posts the message only when a project id and an access token are at hand, and reports
      success only for a 2xx answer. */
  function Send(gw: Gateway, m: Message): (d: Delivery)
    ensures d.posted.Some? <==> Configured(gw)
    ensures d.posted.Some? ==> d.posted.value == m
    ensures d.ok <==> Configured(gw) && Successful(gw.status(m))
  {
    if gw.projectId.None? || !Truthy(gw.projectId.value) then Delivery(None, false)
    else if gw.accessToken.None? || !Truthy(gw.accessToken.value) then Delivery(None, false)
    else Delivery(Some(m), Successful(gw.status(m)))
  }

  function TopicMessage(topic: string, title: string, body: string, data: map<string, Value>): (m: Message)
    ensures m.target == Topic(topic) && m.title == title && m.body == body
    ensures m.data == StringifyData(data)
  {
    Message(Topic(topic), title, body, StringifyData(data))
  }

  /** Broadcasts to every subscriber of a topic: the posted message carries exactly the given
      title and body and the stringified data. */
  function SendToTopic(gw: Gateway, topic: string, title: string, body: string, data: map<string, Value>): (d: Delivery)
    ensures d.posted.Some? <==> Configured(gw)
    ensures d.posted.Some? ==> d.posted.value == Message(Topic(topic), title, body, StringifyData(data))
    ensures d.ok <==> Configured(gw) && Successful(gw.status(Message(Topic(topic), title, body, StringifyData(data))))
  {
    Send(gw, TopicMessage(topic, title, body, data))
  }

  /** HTTP v1 takes one token per message: only the first token is addressed, and an empty
      list sends nothing and reports failure. */
  function SendToTokens(gw: Gateway, tokens: seq<string>, title: string, body: string, data: map<string, Value>): (d: Delivery)
    ensures |tokens| == 0 ==> d == Delivery(None, false)
    ensures d.posted.Some? ==> |tokens| > 0 && d.posted.value.target == Token(tokens[0])
    ensures |tokens| > 0 ==> (d.posted.Some? <==> Configured(gw))
    ensures d.posted.Some? ==> d.posted.value.title == title && d.posted.value.body == body
    ensures d.posted.Some? ==> d.posted.value.data == StringifyData(data)
    ensures d.ok <==> |tokens| > 0 && Configured(gw) && Successful(gw.status(d.posted.value))
  {
    if |tokens| == 0 then Delivery(None, false)
    else Send(gw, Message(Token(tokens[0]), title, body, StringifyData(data)))
  }

  /** Tokens after the first make no difference. */
  lemma SendToTokensIgnoresRest(gw: Gateway, first: string, rest1: seq<string>, rest2: seq<string>,
                                title: string, body: string, data: map<string, Value>)
    ensures SendToTokens(gw, [first] + rest1, title, body, data)
         == SendToTokens(gw, [first] + rest2, title, body, data)
  {
  }
}

=== FILE: goal_controller.dfy ===
/** The goals API of the signed-in user: listing with filters, creating, reading, changing,
    deleting, recording progress, flipping completion and the statistics summary. The goals
    table is a sequence of rows; every request only ever finds rows of the caller. */
module GoalController {

  import opened Wrappers
  import opened Calendar
  import opened Sequences
  import opened Goals

  /** A request body. `description` is absent (None), present but null (Some(None)) or a
      text (Some(Some(text))); `isCompleted` is the already-parsed boolean. */
  datatype GoalForm = GoalForm(
    title: Option<string>,
    description: Option<Option<string>>,
    goalType: Option<string>,
    category: Option<string>,
    targetDate: Option<Day>,
    progress: Option<int>,
    isCompleted: Option<bool>)

  predicate ValidTitle(title: string) {
    title != "" && |title| <= 255
  }

  predicate ValidProgress(progress: int) {
    0 <= progress <= 100
  }

  /** The rules of `store`: title, type, category and a target date after today are required;
      progress, when given, lies in [0, 100]. */
  predicate ValidNewGoal(form: GoalForm, today: Day) {
    && form.title.Some? && ValidTitle(form.title.value)
    && form.goalType.Some? && form.goalType.value in TypeOptions
    && form.category.Some? && form.category.value in CategoryOptions
    && form.targetDate.Some? && form.targetDate.value > today
    && (form.progress.None? || ValidProgress(form.progress.value))
  }

  /** The rules of `update`: the same constraints, each only on the fields that are sent. */
  predicate ValidChange(form: GoalForm, today: Day) {
    && (form.title.None? || ValidTitle(form.title.value))
    && (form.goalType.None? || form.goalType.value in TypeOptions)
    && (form.category.None? || form.category.value in CategoryOptions)
    && (form.targetDate.None? || form.targetDate.value > today)
    && (form.progress.None? || ValidProgress(form.progress.value))
  }

  predicate Owns(g: Goal, userId: nat, id: nat) {
    g.userId == userId && g.id == id
  }

  /** `where('user_id', userId)->findOrFail(id)`: the position of the caller's goal `id`. */
  function FindOwned(goals: seq<Goal>, userId: nat, id: nat): (r: Option<nat>)
    ensures r.None? <==> forall i :: 0 <= i < |goals| ==> !Owns(goals[i], userId, id)
    ensures r.Some? ==> r.value < |goals| && Owns(goals[r.value], userId, id)
    ensures r.Some? ==> forall i :: 0 <= i < r.value ==> !Owns(goals[i], userId, id)
  {
    if goals == [] then None
    else if Owns(goals[0], userId, id) then Some(0)
    else
      match FindOwned(goals[1..], userId, id)
      case None => None
      case Some(i) => Some(i + 1)
  }

  /** The row at `i` replaced by `g`; every other row stays. */
  function Replace(goals: seq<Goal>, i: nat, g: Goal): (out: seq<Goal>)
    requires i < |goals|
    ensures |out| == |goals| && out[i] == g
    ensures forall j :: 0 <= j < |goals| && j != i ==> out[j] == goals[j]
  {
    goals[i := g]
  }

  /** A saved row and the table after the save. */
  datatype Saved = Saved(goal: Goal, table: seq<Goal>)

  // ---------------------------------------------------------------------------
  // store and show

  /** Appends the caller's new goal with id `nextId`; missing progress becomes 0 and missing
      completion false. A new goal is never completed automatically. */
  function Store(goals: seq<Goal>, userId: nat, form: GoalForm, nextId: nat, today: Day): (r: Result<Saved>)
    ensures r.Ok? <==> ValidNewGoal(form, today)
    ensures r.Err? ==> r.failure == ValidationFailed
    ensures r.Ok? ==> var g := r.value.goal;
      && r.value.table == goals + [g]
      && g.id == nextId && g.userId == userId
      && g.title == form.title.value
      && (g.description == if form.description.Some? then form.description.value else None)
      && g.goalType == form.goalType.value && g.category == form.category.value
      && g.targetDate == form.targetDate.value && g.targetDate > today
      && (g.progress == if form.progress.Some? then form.progress.value else 0)
      && ValidProgress(g.progress)
      && (g.isCompleted <==> form.isCompleted == Some(true))
  {
    if !ValidNewGoal(form, today) then Err(ValidationFailed) else
    var g := Goal(nextId, userId, form.title.value, form.description.GetOr(None),
                  form.goalType.value, form.category.value, form.targetDate.value,
                  form.isCompleted.GetOr(false), form.progress.GetOr(0));
    Ok(Saved(g, goals + [g]))
  }

  /** The caller's goal `id`, or 404. */
  function Show(goals: seq<Goal>, userId: nat, id: nat): (r: Result<Goal>)
    ensures r.Ok? <==> exists i :: 0 <= i < |goals| && Owns(goals[i], userId, id)
    ensures r.Err? ==> r.failure == Abort(404)
    ensures r.Ok? ==> r.value in goals && Owns(r.value, userId, id)
  {
    match FindOwned(goals, userId, id)
    case None => Err(Abort(404))
    case Some(i) => Ok(goals[i])
  }

  // ---------------------------------------------------------------------------
  // update and updateProgress

  /** Whether a goal must be completed after a change: progress of 100 or more completes it,
      otherwise the sent flag wins, otherwise it keeps its state. */
  function CompletionAfter(before: bool, progress: Option<int>, isCompleted: Option<bool>): (after: bool)
    ensures progress.Some? && progress.value >= 100 ==> after
    ensures (progress.None? || progress.value < 100) && isCompleted.Some? ==> after == isCompleted.value
    ensures (progress.None? || progress.value < 100) && isCompleted.None? ==> after == before
  {
    if progress.Some? && progress.value >= 100 then true
    else isCompleted.GetOr(before)
  }

  /** `after` carries each field the form sends and keeps the others of `before`. */
  predicate FollowsForm(before: Goal, after: Goal, form: GoalForm) {
    && after.id == before.id && after.userId == before.userId
    && after.title == form.title.GetOr(before.title)
    && after.description == form.description.GetOr(before.description)
    && after.goalType == form.goalType.GetOr(before.goalType)
    && after.category == form.category.GetOr(before.category)
    && after.targetDate == form.targetDate.GetOr(before.targetDate)
    && after.progress == form.progress.GetOr(before.progress)
  }

  /** Looks the goal up first (404), then validates (422), then applies the sent fields with
      the auto-completion rule. */
  function Update(goals: seq<Goal>, userId: nat, id: nat, form: GoalForm, today: Day): (r: Result<Saved>)
    ensures FindOwned(goals, userId, id).None? ==> r == Err(Abort(404))
    ensures FindOwned(goals, userId, id).Some? ==> (r.Ok? <==> ValidChange(form, today))
    ensures r.Err? && FindOwned(goals, userId, id).Some? ==> r.failure == ValidationFailed
    ensures r.Ok? ==> var i := FindOwned(goals, userId, id).value;
      && r.value.table == Replace(goals, i, r.value.goal)
      && FollowsForm(goals[i], r.value.goal, form)
      && r.value.goal.isCompleted == CompletionAfter(goals[i].isCompleted, form.progress, form.isCompleted)
  {
    var i :- FindOwned(goals, userId, id).ToResult(Abort(404));
    :- Need(ValidChange(form, today), ValidationFailed);
    var before := goals[i];
    var after := before.(
      title := form.title.GetOr(before.title),
      description := form.description.GetOr(before.description),
      goalType := form.goalType.GetOr(before.goalType),
      category := form.category.GetOr(before.category),
      targetDate := form.targetDate.GetOr(before.targetDate),
      progress := form.progress.GetOr(before.progress),
      isCompleted := CompletionAfter(before.isCompleted, form.progress, form.isCompleted));
    Ok(Saved(after, Replace(goals, i, after)))
  }

  /** Records progress (required, in [0, 100]) and, when sent, the completion flag; 100
      completes the goal. */
  function UpdateProgress(goals: seq<Goal>, userId: nat, id: nat, progress: Option<int>, isCompleted: Option<bool>): (r: Result<Saved>)
    ensures FindOwned(goals, userId, id).None? ==> r == Err(Abort(404))
    ensures FindOwned(goals, userId, id).Some? ==>
      (r.Ok? <==> progress.Some? && ValidProgress(progress.value))
    ensures r.Err? && FindOwned(goals, userId, id).Some? ==> r.failure == ValidationFailed
    ensures r.Ok? ==> var i := FindOwned(goals, userId, id).value;
      && r.value.table == Replace(goals, i, r.value.goal)
      && r.value.goal == goals[i].(progress := progress.value,
                                   isCompleted := CompletionAfter(goals[i].isCompleted, progress, isCompleted))
  {
    var i :- FindOwned(goals, userId, id).ToResult(Abort(404));
    :- Need(progress.Some? && ValidProgress(progress.value), ValidationFailed);
    var after := goals[i].(progress := progress.value,
                           isCompleted := CompletionAfter(goals[i].isCompleted, progress, isCompleted));
    Ok(Saved(after, Replace(goals, i, after)))
  }

  /** Progress below 100 without a completion flag leaves completion as it was, even for a
      completed goal. */
  lemma PartialProgressKeepsCompletion(goals: seq<Goal>, userId: nat, id: nat, progress: int)
    requires 0 <= progress < 100
    requires FindOwned(goals, userId, id).Some?
    ensures var r := UpdateProgress(goals, userId, id, Some(progress), None);
      && r.Ok?
      && r.value.goal.isCompleted == goals[FindOwned(goals, userId, id).value].isCompleted
      && r.value.goal.progress == progress
  {
  }

  /** Full progress completes a goal even when the request says it is not completed. */
  lemma FullProgressCompletes(goals: seq<Goal>, userId: nat, id: nat, form: GoalForm, today: Day)
    requires form.progress == Some(100) && form.isCompleted == Some(false)
    ensures Update(goals, userId, id, form, today).Ok? ==> Update(goals, userId, id, form, today).value.goal.isCompleted
    ensures UpdateProgress(goals, userId, id, Some(100), Some(false)).Ok?
        ==> UpdateProgress(goals, userId, id, Some(100), Some(false)).value.goal.isCompleted
  {
  }

  // ---------------------------------------------------------------------------
  // toggleCompletion and destroy

  /** Flips completion; a goal that becomes completed gets progress 100, one that is reopened
      progress 0. */
  function ToggleCompletion(goals: seq<Goal>, userId: nat, id: nat): (r: Result<Saved>)
    ensures r.Ok? <==> FindOwned(goals, userId, id).Some?
    ensures r.Err? ==> r.failure == Abort(404)
    ensures r.Ok? ==> var i := FindOwned(goals, userId, id).value; var g := r.value.goal;
      && r.value.table == Replace(goals, i, g)
      && g.isCompleted == !goals[i].isCompleted
      && (g.progress == 100 <==> g.isCompleted)
      && (g.progress == 0 <==> !g.isCompleted)
      && g == goals[i].(isCompleted := g.isCompleted, progress := g.progress)
  {
    var i :- FindOwned(goals, userId, id).ToResult(Abort(404));
    var before := goals[i];
    var after := before.(isCompleted := !before.isCompleted, progress := if before.isCompleted then 0 else 100);
    Ok(Saved(after, Replace(goals, i, after)))
  }

  /** Toggling twice restores completion; progress ends at 100 for a goal that was completed
      and 0 for one that was open, whatever it was before. */
  lemma ToggleTwice(goals: seq<Goal>, userId: nat, id: nat)
    requires FindOwned(goals, userId, id).Some?
    ensures var i := FindOwned(goals, userId, id).value;
      var first := ToggleCompletion(goals, userId, id).value;
      var second := ToggleCompletion(first.table, userId, id);
      && second.Ok?
      && second.value.goal.isCompleted == goals[i].isCompleted
      && second.value.goal.progress == (if goals[i].isCompleted then 100 else 0)
      && second.value.table == goals[i := goals[i].(progress := second.value.goal.progress)]
  {
    var i := FindOwned(goals, userId, id).value;
    var first := ToggleCompletion(goals, userId, id).value;
    assert FindOwned(first.table, userId, id) == Some(i) by {
      assert forall j :: 0 <= j < |goals| ==> Owns(first.table[j], userId, id) == Owns(goals[j], userId, id);
    }
  }

  /** Removes the caller's goal `id`; the other rows keep their order. */
  function Destroy(goals: seq<Goal>, userId: nat, id: nat): (r: Result<seq<Goal>>)
    ensures r.Ok? <==> FindOwned(goals, userId, id).Some?
    ensures r.Err? ==> r.failure == Abort(404)
    ensures r.Ok? ==> var i := FindOwned(goals, userId, id).value;
      && |r.value| == |goals| - 1
      && multiset(r.value) + multiset{goals[i]} == multiset(goals)
      && (forall j :: 0 <= j < i ==> r.value[j] == goals[j])
      && (forall j :: i < j < |goals| ==> r.value[j - 1] == goals[j])
  {
    var i :- FindOwned(goals, userId, id).ToResult(Abort(404));
    RemoveAt(goals, i);
    Ok(goals[..i] + goals[i + 1..])
  }

  /** Ids are the table's primary key. */
  predicate UniqueIds(goals: seq<Goal>) {
    forall i, j :: 0 <= i < j < |goals| ==> goals[i].id != goals[j].id
  }

  /** Once deleted, the goal can no longer be shown. */
  lemma DestroyedGoalIsGone(goals: seq<Goal>, userId: nat, id: nat)
    requires UniqueIds(goals)
    requires Destroy(goals, userId, id).Ok?
    ensures Show(Destroy(goals, userId, id).value, userId, id) == Err(Abort(404))
  {
    var i := FindOwned(goals, userId, id).value;
    var rest := Destroy(goals, userId, id).value;
    forall k | 0 <= k < |rest|
      ensures !Owns(rest[k], userId, id)
    {
      if k < i {
        assert rest[k] == goals[k];
      } else {
        assert rest[k] == goals[k + 1];
      }
    }
  }

  /** No request of one user changes the goals of another: `other`'s rows are the same, in
      the same order, before and after each successful write. */
  lemma UpdateKeepsOtherUsers(goals: seq<Goal>, userId: nat, id: nat, form: GoalForm, today: Day, other: nat)
    requires other != userId
    requires Update(goals, userId, id, form, today).Ok?
    ensures OwnedBy(Update(goals, userId, id, form, today).value.table, other) == OwnedBy(goals, other)
  {
    var i := FindOwned(goals, userId, id).value;
    OwnedByReplace(goals, i, Update(goals, userId, id, form, today).value.goal, other);
  }

  lemma UpdateProgressKeepsOtherUsers(goals: seq<Goal>, userId: nat, id: nat, progress: Option<int>,
                                      isCompleted: Option<bool>, other: nat)
    requires other != userId
    requires UpdateProgress(goals, userId, id, progress, isCompleted).Ok?
    ensures OwnedBy(UpdateProgress(goals, userId, id, progress, isCompleted).value.table, other) == OwnedBy(goals, other)
  {
    var i := FindOwned(goals, userId, id).value;
    OwnedByReplace(goals, i, UpdateProgress(goals, userId, id, progress, isCompleted).value.goal, other);
  }

  lemma ToggleKeepsOtherUsers(goals: seq<Goal>, userId: nat, id: nat, other: nat)
    requires other != userId
    requires ToggleCompletion(goals, userId, id).Ok?
    ensures OwnedBy(ToggleCompletion(goals, userId, id).value.table, other) == OwnedBy(goals, other)
  {
    var i := FindOwned(goals, userId, id).value;
    OwnedByReplace(goals, i, ToggleCompletion(goals, userId, id).value.goal, other);
  }

  lemma DestroyKeepsOtherUsers(goals: seq<Goal>, userId: nat, id: nat, other: nat)
    requires other != userId
    requires Destroy(goals, userId, id).Ok?
    ensures OwnedBy(Destroy(goals, userId, id).value, other) == OwnedBy(goals, other)
  {
    var i := FindOwned(goals, userId, id).value;
    var rest := Destroy(goals, userId, id).value;
    assert rest == goals[..i] + goals[i + 1..];
    OwnedByRemove(goals, i, other);
  }

  /** Replacing a row of some other user does not change `other`'s rows. */
  lemma {:induction false} OwnedByReplace(goals: seq<Goal>, i: nat, g: Goal, other: nat)
    requires i < |goals| && goals[i].userId != other && g.userId != other
    ensures OwnedBy(goals[i := g], other) == OwnedBy(goals, other)
  {
    assert goals == [goals[0]] + goals[1..];
    assert goals[i := g] == [goals[i := g][0]] + goals[i := g][1..];
    if i > 0 {
      assert goals[i := g][1..] == goals[1..][i - 1 := g];
      OwnedByReplace(goals[1..], i - 1, g, other);
    } else {
      assert goals[i := g][1..] == goals[1..];
    }
  }

  /** Removing a row of some other user does not change `other`'s rows. */
  lemma {:induction false} OwnedByRemove(goals: seq<Goal>, i: nat, other: nat)
    requires i < |goals| && goals[i].userId != other
    ensures OwnedBy(goals[..i] + goals[i + 1..], other) == OwnedBy(goals, other)
  {
    assert goals == [goals[0]] + goals[1..];
    if i > 0 {
      var tail := goals[1..];
      assert goals[..i] + goals[i + 1..] == [goals[0]] + (tail[..i - 1] + tail[i..]);
      OwnedByRemove(tail, i - 1, other);
    } else {
      assert goals[..i] + goals[i + 1..] == goals[1..];
    }
  }

  // ---------------------------------------------------------------------------
  // index

  /** The query parameters of the listing; `completed` is the parsed boolean when the
      parameter is present, `overdue` whether it is true. */
  datatype GoalFilter = GoalFilter(
    goalType: Option<string>,
    category: Option<string>,
    completed: Option<bool>,
    overdue: bool)

  /** What a listed goal satisfies: it is the caller's and passes each supplied filter. */
  predicate Selected(g: Goal, userId: nat, f: GoalFilter, today: Day) {
    && g.userId == userId
    && (f.goalType.Some? ==> g.goalType == f.goalType.value)
    && (f.category.Some? ==> g.category == f.category.value)
    && (f.completed.Some? ==> g.isCompleted == f.completed.value)
    && (f.overdue ==> IsOverdue(g, today))
  }

  /** The scopes the request switches on, chained in the controller's order. */
  function ApplyFilters(goals: seq<Goal>, f: GoalFilter, today: Day): seq<Goal> {
    var byType := if f.goalType.Some? then OfType(goals, f.goalType.value) else goals;
    var byCategory := if f.category.Some? then OfCategory(byType, f.category.value) else byType;
    var byState :=
      match f.completed
      case None => byCategory
      case Some(true) => CompletedGoals(byCategory)
      case Some(false) => ActiveGoals(byCategory);
    if f.overdue then OverdueGoals(byState, today) else byState
  }

  function TargetKey(g: Goal): int { g.targetDate }

  /** Every scope keeps a row as often as the table holds it when the row passes, and drops
      it otherwise. */
  lemma ApplyFiltersCounts(goals: seq<Goal>, f: GoalFilter, today: Day, g: Goal)
    ensures multiset(ApplyFilters(goals, f, today))[g]
         == if Selected(g, g.userId, f, today) then multiset(goals)[g] else 0
  {
    var byType := if f.goalType.Some? then OfType(goals, f.goalType.value) else goals;
    if f.goalType.Some? {
      FieldIsApplies(TypeOf, f.goalType.value, g);
    }
    var byCategory := if f.category.Some? then OfCategory(byType, f.category.value) else byType;
    if f.category.Some? {
      FieldIsApplies(CategoryOf, f.category.value, g);
    }
    if f.overdue {
      var byState :=
        match f.completed
        case None => byCategory
        case Some(true) => CompletedGoals(byCategory)
        case Some(false) => ActiveGoals(byCategory);
      assert OverdueClause(today)(g) == IsOverdue(g, today);
    }
  }

  /** The caller's goals passing every filter, each as often as in the table, by target date. */
  function Index(goals: seq<Goal>, userId: nat, f: GoalFilter, today: Day): (r: seq<Goal>)
    ensures forall i, j :: 0 <= i < j < |r| ==> r[i].targetDate <= r[j].targetDate
    ensures forall g :: multiset(r)[g] == if Selected(g, userId, f, today) then multiset(goals)[g] else 0
    ensures forall g :: g in r <==> g in goals && Selected(g, userId, f, today)
  {
    var own := OwnedBy(goals, userId);
    var selected := ApplyFilters(own, f, today);
    var r := SortBy(selected, TargetKey);
    assert SortedBy(r, TargetKey);
    forall g
      ensures multiset(r)[g] == if Selected(g, userId, f, today) then multiset(goals)[g] else 0
      ensures g in r <==> g in goals && Selected(g, userId, f, today)
    {
      ApplyFiltersCounts(own, f, today, g);
      assert OwnerIs(userId)(g) == (g.userId == userId);
      assert multiset(own)[g] == if g.userId == userId then multiset(goals)[g] else 0;
      assert multiset(r)[g] == multiset(selected)[g];
      assert g in r <==> multiset(r)[g] > 0;
      assert g in goals <==> multiset(goals)[g] > 0;
    }
    r
  }

  /** With no filter the listing is all of the caller's goals. */
  lemma UnfilteredIndex(goals: seq<Goal>, userId: nat, today: Day)
    ensures multiset(Index(goals, userId, GoalFilter(None, None, None, false), today))
         == multiset(OwnedBy(goals, userId))
  {
  }

  // ---------------------------------------------------------------------------
  // statistics

  /** The values a string column takes in some row. */
  function FieldValues(goals: seq<Goal>, field: Goal -> string): (values: set<string>)
    ensures forall k :: k in values <==> exists i :: 0 <= i < |goals| && field(goals[i]) == k
  {
    if goals == [] then {}
    else
      var rest := FieldValues(goals[1..], field);
      assert forall i :: 0 < i < |goals| ==> goals[i] == goals[1..][i - 1];
      assert forall k :: k in rest <==> exists i :: 0 < i < |goals| && field(goals[i]) == k by {
        forall k | k in rest
          ensures exists i :: 0 < i < |goals| && field(goals[i]) == k
        {
          var j :| 0 <= j < |goals[1..]| && field(goals[1..][j]) == k;
          assert field(goals[j + 1]) == k;
        }
      }
      {field(goals[0])} + rest
  }

  /** A value occurs in the column exactly when selecting it keeps some row. */
  lemma ValueHasRows(goals: seq<Goal>, field: Goal -> string, k: string)
    ensures k in FieldValues(goals, field) <==> |Filter(goals, FieldIs(field, k))| > 0
  {
    var p := FieldIs(field, k);
    if k in FieldValues(goals, field) {
      var i :| 0 <= i < |goals| && field(goals[i]) == k;
      FieldIsApplies(field, k, goals[i]);
      FilterMembership(goals, p, goals[i]);
    } else {
      forall i | 0 <= i < |goals|
        ensures !p(goals[i])
      {
        FieldIsApplies(field, k, goals[i]);
      }
      FilterNone(goals, p);
    }
  }

  /** `groupBy(column)` with `COUNT(*)`: the number of rows per value; exactly the values
      that have rows are keys. */
  function CountBy(goals: seq<Goal>, field: Goal -> string): (counts: map<string, nat>)
    ensures forall k :: k in counts <==> |Filter(goals, FieldIs(field, k))| > 0
    ensures forall k :: k in counts ==> counts[k] == |Filter(goals, FieldIs(field, k))|
  {
    forall k ensures k in FieldValues(goals, field) <==> |Filter(goals, FieldIs(field, k))| > 0 {
      ValueHasRows(goals, field, k);
    }
    map k | k in FieldValues(goals, field) :: |Filter(goals, FieldIs(field, k))|
  }

  datatype Statistics = Statistics(
    total: nat,
    completed: nat,
    active: nat,
    overdue: nat,
    byType: map<string, nat>,
    byCategory: map<string, nat>)

  /** The caller's counts: all goals, completed, active and overdue ones, and the number per
      type and per category. */
  function GoalStatistics(goals: seq<Goal>, userId: nat, today: Day): (s: Statistics)
    ensures s.total == |OwnedBy(goals, userId)|
    ensures s.total == s.completed + s.active
    ensures s.completed == |CompletedGoals(OwnedBy(goals, userId))|
    ensures s.active == |ActiveGoals(OwnedBy(goals, userId))|
    ensures s.overdue == |OverdueGoals(OwnedBy(goals, userId), today)|
    ensures s.overdue <= s.active
    ensures forall t :: t in s.byType <==> |OfType(OwnedBy(goals, userId), t)| > 0
    ensures forall t :: t in s.byType ==> s.byType[t] == |OfType(OwnedBy(goals, userId), t)|
    ensures forall c :: c in s.byCategory <==> |OfCategory(OwnedBy(goals, userId), c)| > 0
    ensures forall c :: c in s.byCategory ==> s.byCategory[c] == |OfCategory(OwnedBy(goals, userId), c)|
  {
    var own := OwnedBy(goals, userId);
    CompletedActivePartition(own);
    OverdueScopeMatchesAttribute(own, today);
    Statistics(|own|, |CompletedGoals(own)|, |ActiveGoals(own)|, |OverdueGoals(own, today)|,
               CountBy(own, TypeOf), CountBy(own, CategoryOf))
  }
}

=== FILE: goals.dfy ===
/** Personal goals: their fixed type and category vocabularies, the labels shown for them,
    whether a goal is overdue and how many days remain, and the query scopes the controller
    combines. */
module Goals {

  import opened Wrappers
  import opened Strings
  import opened Calendar
  import opened Sequences

  const TypeOptions: seq<string> := ["yearly", "fiveYear", "quarterly", "monthly"]
  const TypeLabels: seq<string> := ["Yearly Goal", "5-Year Goal", "Quarterly Goal", "Monthly Goal"]

  const CategoryOptions: seq<string> :=
    ["spiritual", "personal", "professional", "health", "relationships", "ministry"]
  const CategoryLabels: seq<string> :=
    ["Spiritual Growth", "Personal Development", "Professional", "Health & Wellness", "Relationships", "Ministry & Service"]

  datatype Goal = Goal(
    id: nat,
    userId: nat,
    title: string,
    description: Option<string>,
    goalType: string,
    category: string,
    targetDate: Day,
    isCompleted: bool,
    progress: int)

  /** The label of a goal type; an unknown type is shown with its first letter upper-cased. */
  function TypeDisplayName(goalType: string): (name: string)
    ensures goalType !in TypeOptions ==> name == Ucfirst(goalType)
  {
    if goalType == "yearly" then "Yearly Goal"
    else if goalType == "fiveYear" then "5-Year Goal"
    else if goalType == "quarterly" then "Quarterly Goal"
    else if goalType == "monthly" then "Monthly Goal"
    else Ucfirst(goalType)
  }

  /** The label of a category; an unknown category is shown with its first letter upper-cased. */
  function CategoryDisplayName(category: string): (name: string)
    ensures category !in CategoryOptions ==> name == Ucfirst(category)
  {
    if category == "spiritual" then "Spiritual Growth"
    else if category == "personal" then "Personal Development"
    else if category == "professional" then "Professional"
    else if category == "health" then "Health & Wellness"
    else if category == "relationships" then "Relationships"
    else if category == "ministry" then "Ministry & Service"
    else Ucfirst(category)
  }

  /** Each option has its own label, and different options never share one. */
  lemma TypeLabelsOfOptions()
    ensures forall i :: 0 <= i < |TypeOptions| ==> TypeDisplayName(TypeOptions[i]) == TypeLabels[i]
    ensures forall i, j :: 0 <= i < j < |TypeOptions| ==> TypeDisplayName(TypeOptions[i]) != TypeDisplayName(TypeOptions[j])
  {
    forall i | 0 <= i < |TypeOptions|
      ensures TypeDisplayName(TypeOptions[i]) == TypeLabels[i]
    {
      TypeLabelAt(i);
    }
    TypeLabelsDistinct();
  }

  lemma TypeLabelAt(i: nat)
    requires i < |TypeOptions|
    ensures TypeDisplayName(TypeOptions[i]) == TypeLabels[i]
  {
    var t := TypeOptions[i];
    if i == 0 { assert t == "yearly"; }
    else if i == 1 { assert t == "fiveYear"; }
    else if i == 2 { assert t == "quarterly"; }
    else { assert t == "monthly"; }
  }

  lemma TypeLabelsDistinct()
    ensures forall i, j :: 0 <= i < j < |TypeLabels| ==> TypeLabels[i] != TypeLabels[j]
  {
    // The four labels start with four different characters.
    assert forall i, j :: 0 <= i < j < |TypeLabels| ==> TypeLabels[i][0] != TypeLabels[j][0];
  }

  lemma CategoryLabelsOfOptions()
    ensures forall i :: 0 <= i < |CategoryOptions| ==> CategoryDisplayName(CategoryOptions[i]) == CategoryLabels[i]
    ensures forall i, j :: 0 <= i < j < |CategoryOptions| ==>
      CategoryDisplayName(CategoryOptions[i]) != CategoryDisplayName(CategoryOptions[j])
  {
    forall i | 0 <= i < |CategoryOptions|
      ensures CategoryDisplayName(CategoryOptions[i]) == CategoryLabels[i]
    {
      CategoryLabelAt(i);
    }
    CategoryLabelsDistinct();
  }

  lemma CategoryLabelAt(i: nat)
    requires i < |CategoryOptions|
    ensures CategoryDisplayName(CategoryOptions[i]) == CategoryLabels[i]
  {
    var c := CategoryOptions[i];
    if i == 0 { assert c == "spiritual"; }
    else if i == 1 { assert c == "personal"; }
    else if i == 2 { assert c == "professional"; }
    else if i == 3 { assert c == "health"; }
    else if i == 4 { assert c == "relationships"; }
    else { assert c == "ministry"; }
  }

  lemma CategoryLabelsDistinct()
    ensures forall i, j :: 0 <= i < j < |CategoryLabels| ==> CategoryLabels[i] != CategoryLabels[j]
  {
    // The six labels have six different lengths.
    assert forall i, j :: 0 <= i < j < |CategoryLabels| ==> |CategoryLabels[i]| != |CategoryLabels[j]|;
  }

  /** The `is_overdue` attribute: not completed and due before today. */
  predicate IsOverdue(g: Goal, today: Day) {
    !g.isCompleted && g.targetDate < today
  }

  /** The `days_remaining` attribute: signed days from today to the target date. */
  function DaysRemaining(g: Goal, today: Day): (days: int)
    ensures days < 0 <==> g.targetDate < today
    ensures days == 0 <==> g.targetDate == today
    ensures today + days == g.targetDate
  {
    g.targetDate - today
  }

  /** An open goal is overdue exactly when its days remaining are negative. */
  lemma OverdueIffNoDaysLeft(g: Goal, today: Day)
    ensures IsOverdue(g, today) <==> !g.isCompleted && DaysRemaining(g, today) < 0
  {
  }

  // ---------------------------------------------------------------------------
  // Query scopes: each keeps the rows its where-clauses select, in order

  predicate Done(g: Goal) { g.isCompleted }

  predicate Open(g: Goal) { !g.isCompleted }

  /** The two where-clauses of the overdue scope. */
  function OverdueClause(today: Day): Goal -> bool {
    (g: Goal) => g.isCompleted == false && g.targetDate < today
  }

  function TypeOf(g: Goal): string { g.goalType }

  function CategoryOf(g: Goal): string { g.category }

  /** `where(field, value)` on a string column. */
  function FieldIs(field: Goal -> string, value: string): Goal -> bool {
    (g: Goal) => field(g) == value
  }

  lemma FieldIsApplies(field: Goal -> string, value: string, g: Goal)
    ensures FieldIs(field, value)(g) <==> field(g) == value
  {
  }

  /** `where('user_id', userId)`: the caller's own goals. */
  function OwnerIs(userId: nat): Goal -> bool {
    (g: Goal) => g.userId == userId
  }

  function OwnedBy(goals: seq<Goal>, userId: nat): seq<Goal> {
    Filter(goals, OwnerIs(userId))
  }

  function OfType(goals: seq<Goal>, goalType: string): seq<Goal> {
    Filter(goals, FieldIs(TypeOf, goalType))
  }

  function OfCategory(goals: seq<Goal>, category: string): seq<Goal> {
    Filter(goals, FieldIs(CategoryOf, category))
  }

  function CompletedGoals(goals: seq<Goal>): seq<Goal> {
    Filter(goals, Done)
  }

  function ActiveGoals(goals: seq<Goal>): seq<Goal> {
    Filter(goals, Open)
  }

  function OverdueGoals(goals: seq<Goal>, today: Day): seq<Goal> {
    Filter(goals, OverdueClause(today))
  }

  /** The completed and active scopes split every set of goals. */
  lemma CompletedActivePartition(goals: seq<Goal>)
    ensures |CompletedGoals(goals)| + |ActiveGoals(goals)| == |goals|
    ensures forall g :: g in goals ==> (g in CompletedGoals(goals) <==> g !in ActiveGoals(goals))
  {
    FilterPartition(goals, Done, Open);
    forall g | g in goals
      ensures g in CompletedGoals(goals) <==> g !in ActiveGoals(goals)
    {
      FilterMembership(goals, Done, g);
      FilterMembership(goals, Open, g);
    }
  }

  /** The overdue scope selects exactly the goals whose `is_overdue` attribute holds, and
      they are all active. */
  lemma OverdueScopeMatchesAttribute(goals: seq<Goal>, today: Day)
    ensures forall g :: g in OverdueGoals(goals, today) <==> g in goals && IsOverdue(g, today)
    ensures |OverdueGoals(goals, today)| <= |ActiveGoals(goals)|
  {
    forall g
      ensures g in OverdueGoals(goals, today) <==> g in goals && IsOverdue(g, today)
    {
      FilterMembership(goals, OverdueClause(today), g);
    }
    FilterMonotone(goals, OverdueClause(today), Open);
  }
}

=== FILE: journal.dfy ===
/** The user's journal: listing their own entries newest first with optional date and task
    filters, writing new entries, and changing or deleting an entry, which only its author
    may do. */
module Journal {

  import opened Wrappers
  import opened Calendar
  import opened Sequences

  datatype JournalEntry = JournalEntry(id: nat, userId: nat, taskId: Option<int>, entryDate: Day, content: string)

  /** The listing's query parameters, already validated: `from` and `to` are dates, `taskId`
      an integer, each absent when not sent. */
  datatype JournalQuery = JournalQuery(from: Option<Day>, to: Option<Day>, taskId: Option<int>)

  /** PHP's `empty` on a nullable integer: null and 0 are empty. */
  predicate Given(n: Option<int>) {
    n.Some? && n.value != 0
  }

  /** The where-clauses of the listing: the caller's entries, dated on or after `from`, on or
      before `to`, of task `taskId`. */
  function ListedClause(userId: nat, q: JournalQuery): JournalEntry -> bool {
    (e: JournalEntry) =>
      && e.userId == userId
      && (q.from.Some? ==> e.entryDate >= q.from.value)
      && (q.to.Some? ==> e.entryDate <= q.to.value)
      && (Given(q.taskId) ==> e.taskId == q.taskId)
  }

  /** Descending date order as an ascending sort key. */
  function NewestFirst(e: JournalEntry): int { -(e.entryDate as int) }

  /** `index`: each listed entry is the caller's and inside the inclusive date bounds, carries
      the requested task when one is given (0 means none), appears as often as in the table,
      and the list runs from the newest date to the oldest. */
  function Index(entries: seq<JournalEntry>, userId: nat, q: JournalQuery): (r: seq<JournalEntry>)
    ensures forall i, j :: 0 <= i < j < |r| ==> r[i].entryDate >= r[j].entryDate
    ensures forall e :: e in r <==>
      && e in entries && e.userId == userId
      && (q.from.None? || q.from.value <= e.entryDate)
      && (q.to.None? || e.entryDate <= q.to.value)
      && (q.taskId.None? || q.taskId.value == 0 || e.taskId == q.taskId)
    ensures forall e :: multiset(r)[e] == if ListedClause(userId, q)(e) then multiset(entries)[e] else 0
  {
    var selected := Filter(entries, ListedClause(userId, q));
    var r := SortBy(selected, NewestFirst);
    assert SortedBy(r, NewestFirst);
    forall e
      ensures e in r <==> e in entries && ListedClause(userId, q)(e)
    {
      FilterMembership(entries, ListedClause(userId, q), e);
      SortByMembership(selected, NewestFirst, e);
    }
    r
  }

  /** Both date bounds are inclusive: an entry of the caller dated exactly `from` or exactly
      `to` is listed. */
  lemma BoundsInclusive(entries: seq<JournalEntry>, userId: nat, e: JournalEntry, from: Day, to: Day)
    requires e in entries && e.userId == userId && e.taskId.None?
    requires e.entryDate == from || e.entryDate == to
    requires from <= to
    ensures e in Index(entries, userId, JournalQuery(Some(from), Some(to), None))
  {
  }

  /** A task filter of 0 is ignored, so it lists the same as no task filter. */
  lemma ZeroTaskIgnored(entries: seq<JournalEntry>, userId: nat, from: Option<Day>, to: Option<Day>)
    ensures Index(entries, userId, JournalQuery(from, to, Some(0)))
         == Index(entries, userId, JournalQuery(from, to, None))
  {
    FilterSameCondition(entries, ListedClause(userId, JournalQuery(from, to, Some(0))),
                        ListedClause(userId, JournalQuery(from, to, None)));
  }

  /** The body of `store`. */
  datatype NewEntry = NewEntry(entryDate: Option<Day>, content: Option<string>, taskId: Option<int>)

  /** `store`: a date and a non-empty content are required; the entry belongs to the caller
      whatever the request says. */
  function Store(entries: seq<JournalEntry>, userId: nat, form: NewEntry, nextId: nat): (r: Result<seq<JournalEntry>>)
    ensures r.Ok? <==> form.entryDate.Some? && form.content.Some? && form.content.value != ""
    ensures r.Err? ==> r.failure == ValidationFailed
    ensures r.Ok? ==> |r.value| == |entries| + 1 && r.value[..|entries|] == entries
    ensures r.Ok? ==>
      r.value[|entries|] == JournalEntry(nextId, userId, form.taskId, form.entryDate.value, form.content.value)
  {
    if !(form.entryDate.Some? && form.content.Some? && form.content.value != "") then Err(ValidationFailed) else
    Ok(entries + [JournalEntry(nextId, userId, form.taskId, form.entryDate.value, form.content.value)])
  }

  /** Route-model binding: the position of entry `id`, whoever owns it. */
  function FindEntry(entries: seq<JournalEntry>, id: nat): (r: Option<nat>)
    ensures r.None? <==> forall i :: 0 <= i < |entries| ==> entries[i].id != id
    ensures r.Some? ==> r.value < |entries| && entries[r.value].id == id
  {
    if entries == [] then None
    else if entries[0].id == id then Some(0)
    else
      match FindEntry(entries[1..], id)
      case None => None
      case Some(i) => Some(i + 1)
  }

  /** The body of `update`: each field may be absent; `taskId` may be sent as null. */
  datatype EntryChange = EntryChange(entryDate: Option<Day>, content: Option<string>, taskId: Option<Option<int>>)

  /** `update`: an unknown entry is 404, someone else's is 403 before any validation, then the
      sent fields replace the stored ones. */
  function Update(entries: seq<JournalEntry>, userId: nat, id: nat, change: EntryChange): (r: Result<seq<JournalEntry>>)
    ensures FindEntry(entries, id).None? ==> r == Err(Abort(404))
    ensures FindEntry(entries, id).Some? && entries[FindEntry(entries, id).value].userId != userId
      ==> r == Err(Abort(403))
    ensures r.Ok? ==> var i := FindEntry(entries, id).value; var e := entries[i];
      && e.userId == userId
      && r.value == entries[i := JournalEntry(e.id, e.userId, change.taskId.GetOr(e.taskId),
                                              change.entryDate.GetOr(e.entryDate), change.content.GetOr(e.content))]
    ensures FindEntry(entries, id).Some? && entries[FindEntry(entries, id).value].userId == userId
      ==> (r.Ok? <==> change.content != Some(""))
    ensures r.Err? && FindEntry(entries, id).Some? && entries[FindEntry(entries, id).value].userId == userId
      ==> r.failure == ValidationFailed
  {
    var i :- FindEntry(entries, id).ToResult(Abort(404));
    var e := entries[i];
    :- Need(e.userId == userId, Abort(403));
    :- Need(change.content != Some(""), ValidationFailed);
    Ok(entries[i := e.(taskId := change.taskId.GetOr(e.taskId),
                       entryDate := change.entryDate.GetOr(e.entryDate),
                       content := change.content.GetOr(e.content))])
  }

  /** `destroy`: an unknown entry is 404, someone else's is 403; the owner's entry is removed
      and nothing else. */
  function Destroy(entries: seq<JournalEntry>, userId: nat, id: nat): (r: Result<seq<JournalEntry>>)
    ensures FindEntry(entries, id).None? ==> r == Err(Abort(404))
    ensures FindEntry(entries, id).Some? ==>
      (r.Ok? <==> entries[FindEntry(entries, id).value].userId == userId)
    ensures r.Err? && FindEntry(entries, id).Some? ==> r.failure == Abort(403)
    ensures r.Ok? ==> var i := FindEntry(entries, id).value;
      && multiset(r.value) + multiset{entries[i]} == multiset(entries)
      && r.value == entries[..i] + entries[i + 1..]
  {
    var i :- FindEntry(entries, id).ToResult(Abort(404));
    :- Need(entries[i].userId == userId, Abort(403));
    RemoveAt(entries, i);
    Ok(entries[..i] + entries[i + 1..])
  }

  /** Entry ids are the table's primary key. */
  predicate UniqueIds(entries: seq<JournalEntry>) {
    forall i, j :: 0 <= i < j < |entries| ==> entries[i].id != entries[j].id
  }

  /** After the owner deletes an entry, the entry is gone and every other entry remains. */
  lemma DestroyRemovesExactlyThat(entries: seq<JournalEntry>, userId: nat, id: nat)
    requires UniqueIds(entries)
    requires Destroy(entries, userId, id).Ok?
    ensures forall e :: e in Destroy(entries, userId, id).value <==> e in entries && e.id != id
  {
    var i := FindEntry(entries, id).value;
    var rest := Destroy(entries, userId, id).value;
    assert rest == entries[..i] + entries[i + 1..];
    forall e
      ensures e in rest <==> e in entries && e.id != id
    {
      RemoveAtMembers(entries, i, e);
      OtherPositionsById(entries, i, e);
    }
  }

  /** With unique ids, an entry sits at a position other than i iff it is in the table and
      does not carry the id of the entry at i. */
  lemma OtherPositionsById(entries: seq<JournalEntry>, i: nat, e: JournalEntry)
    requires UniqueIds(entries) && i < |entries|
    ensures (exists k :: 0 <= k < |entries| && k != i && entries[k] == e)
        <==> e in entries && e.id != entries[i].id
  {
    if exists k :: 0 <= k < |entries| && k != i && entries[k] == e {
      var k :| 0 <= k < |entries| && k != i && entries[k] == e;
      if k < i {
        assert entries[k].id != entries[i].id;
      } else {
        assert entries[i].id != entries[k].id;
      }
    }
    if e in entries && e.id != entries[i].id {
      var k :| 0 <= k < |entries| && entries[k] == e;
      assert k != i;
    }
  }

  /** A request by someone other than the author is refused with 403 and changes nothing,
      whatever it carries. */
  lemma NonOwnerRefused(entries: seq<JournalEntry>, userId: nat, id: nat, change: EntryChange)
    requires FindEntry(entries, id).Some?
    requires entries[FindEntry(entries, id).value].userId != userId
    ensures Update(entries, userId, id, change) == Err(Abort(403))
    ensures Destroy(entries, userId, id) == Err(Abort(403))
  {
  }
}

=== FILE: reflections.dfy ===
/** The reflections feed: the app fetches the reflection scheduled for today and those of the
    next six days in one request, to keep a week cached. */
module Reflections {

  import opened Calendar
  import opened Sequences

  datatype Kind = Text | Audio | Quote | Verse

  datatype Reflection = Reflection(id: nat, title: string, kind: Kind, content: string, scheduledDate: Day)

  /** The days the feed covers, counting today. */
  const WindowDays: nat := 7

  /** `whereBetween(scheduled_date, [today, today + 6])`: both ends included. */
  function InWindow(today: Day): Reflection -> bool {
    (r: Reflection) => today <= r.scheduledDate <= today + (WindowDays - 1)
  }

  function ScheduledKey(r: Reflection): int { r.scheduledDate }

  /** `index`: every reflection scheduled from today through six days ahead, each as often as
      the table holds it, none from outside that range, in ascending date order. */
  function Index(reflections: seq<Reflection>, today: Day): (feed: seq<Reflection>)
    ensures forall i, j :: 0 <= i < j < |feed| ==> feed[i].scheduledDate <= feed[j].scheduledDate
    ensures forall r :: r in feed <==> r in reflections && today <= r.scheduledDate <= today + 6
    ensures forall r :: multiset(feed)[r] == if InWindow(today)(r) then multiset(reflections)[r] else 0
  {
    var feed := SortBy(Filter(reflections, InWindow(today)), ScheduledKey);
    FeedMembers(reflections, today, feed);
    feed
  }

  lemma FeedMembers(reflections: seq<Reflection>, today: Day, feed: seq<Reflection>)
    requires feed == SortBy(Filter(reflections, InWindow(today)), ScheduledKey)
    ensures forall i, j :: 0 <= i < j < |feed| ==> feed[i].scheduledDate <= feed[j].scheduledDate
    ensures forall r :: r in feed <==> r in reflections && today <= r.scheduledDate <= today + 6
  {
    var inside := Filter(reflections, InWindow(today));
    assert SortedBy(feed, ScheduledKey);
    forall r
      ensures r in feed <==> r in reflections && InWindow(today)(r)
    {
      FilterMembership(reflections, InWindow(today), r);
      SortByMembership(inside, ScheduledKey, r);
    }
  }

  /** The unique index on `scheduled_date`: one reflection per day. */
  predicate OnePerDay(reflections: seq<Reflection>) {
    DistinctKeys(reflections, ScheduledKey)
  }

  /** With one reflection per day the feed holds at most a week of them. */
  lemma AtMostOneWeek(reflections: seq<Reflection>, today: Day)
    requires OnePerDay(reflections)
    ensures |Index(reflections, today)| <= WindowDays
  {
    var inside := Filter(reflections, InWindow(today));
    FilterKeepsDistinct(reflections, InWindow(today), ScheduledKey);
    DistinctKeysBound(inside, ScheduledKey, today, WindowDays);
  }

  /** The reflections of today and of the sixth day ahead are in the feed; those of
      yesterday and of the seventh day ahead are not. */
  lemma WindowEnds(reflections: seq<Reflection>, today: Day, r: Reflection)
    requires r in reflections
    ensures r.scheduledDate == today ==> r in Index(reflections, today)
    ensures r.scheduledDate == today + 6 ==> r in Index(reflections, today)
    ensures r.scheduledDate == today + 7 ==> r !in Index(reflections, today)
    ensures r.scheduledDate + 1 == today ==> r !in Index(reflections, today)
  {
  }
}

=== FILE: sequences.dfy ===
/** Query building blocks over tables held as sequences: `where` clauses become Filter, and
    `orderBy` becomes SortBy on an integer sort key (negate the key for descending order). */
module Sequences {

  /** The rows of `s` that satisfy `p`, in their original order. */
  function Filter<T(!new)>(s: seq<T>, p: T -> bool): (r: seq<T>)
    ensures |r| <= |s|
    ensures forall i :: 0 <= i < |r| ==> p(r[i])
    ensures forall x :: multiset(r)[x] == if p(x) then multiset(s)[x] else 0
  {
    if s == [] then []
    else
      assert s == [s[0]] + s[1..];
      (if p(s[0]) then [s[0]] else []) + Filter(s[1..], p)
  }

  lemma FilterMembership<T(!new)>(s: seq<T>, p: T -> bool, x: T)
    ensures x in Filter(s, p) <==> x in s && p(x)
  {
    assert x in Filter(s, p) <==> multiset(Filter(s, p))[x] > 0;
    assert x in s <==> multiset(s)[x] > 0;
  }

  /** A condition no row meets selects nothing. */
  lemma {:induction false} FilterNone<T(!new)>(s: seq<T>, p: T -> bool)
    requires forall i :: 0 <= i < |s| ==> !p(s[i])
    ensures Filter(s, p) == []
  {
    if s != [] {
      FilterNone(s[1..], p);
    }
  }

  /** Conditions that agree on every row select the same rows. */
  lemma {:induction false} FilterSameCondition<T(!new)>(s: seq<T>, p: T -> bool, q: T -> bool)
    requires forall x :: p(x) == q(x)
    ensures Filter(s, p) == Filter(s, q)
  {
    if s != [] {
      FilterSameCondition(s[1..], p, q);
    }
  }

  /** A condition and its negation split a table: every row lands in exactly one part. */
  lemma {:induction false} FilterPartition<T(!new)>(s: seq<T>, p: T -> bool, q: T -> bool)
    requires forall x :: q(x) == !p(x)
    ensures |Filter(s, p)| + |Filter(s, q)| == |s|
  {
    if s != [] {
      FilterPartition(s[1..], p, q);
    }
  }

  /** A stronger condition keeps no more rows. */
  lemma {:induction false} FilterMonotone<T(!new)>(s: seq<T>, p: T -> bool, q: T -> bool)
    requires forall x :: p(x) ==> q(x)
    ensures |Filter(s, p)| <= |Filter(s, q)|
  {
    if s != [] {
      FilterMonotone(s[1..], p, q);
    }
  }

  /** Removing the element at position i keeps the others, in order, each once. */
  lemma RemoveAt<T>(s: seq<T>, i: nat)
    requires i < |s|
    ensures var r := s[..i] + s[i + 1..];
      && |r| == |s| - 1
      && multiset(r) + multiset{s[i]} == multiset(s)
      && (forall j :: 0 <= j < i ==> r[j] == s[j])
      && (forall j :: i < j < |s| ==> r[j - 1] == s[j])
  {
    assert s == s[..i] + [s[i]] + s[i + 1..];
  }

  /** After removing position i, a value is present iff it sits at some other position. */
  lemma RemoveAtMembers<T>(s: seq<T>, i: nat, x: T)
    requires i < |s|
    ensures x in s[..i] + s[i + 1..] <==> exists k :: 0 <= k < |s| && k != i && s[k] == x
  {
    var r := s[..i] + s[i + 1..];
    RemoveAt(s, i);
    if x in r {
      var k :| 0 <= k < |r| && r[k] == x;
      if k < i {
        assert s[k] == x;
      } else {
        assert s[k + 1] == x;
      }
    }
    if exists k :: 0 <= k < |s| && k != i && s[k] == x {
      var k :| 0 <= k < |s| && k != i && s[k] == x;
      if k < i {
        assert r[k] == x;
      } else {
        assert r[k - 1] == x;
      }
    }
  }

  predicate SortedBy<T(!new)>(s: seq<T>, key: T -> int) {
    forall i, j :: 0 <= i < j < |s| ==> key(s[i]) <= key(s[j])
  }

  /** Inserts x into a sorted sequence just before the first element whose key is not
      smaller than x's. */
  function Insert<T(!new)>(x: T, s: seq<T>, key: T -> int): (r: seq<T>)
    requires SortedBy(s, key)
    ensures SortedBy(r, key)
    ensures multiset(r) == multiset(s) + multiset{x}
    ensures |r| == |s| + 1
  {
    if s == [] || key(x) <= key(s[0]) then
      SortedCons(x, s, key);
      [x] + s
    else
      var rest := Insert(x, s[1..], key);
      assert s == [s[0]] + s[1..];
      KeysAtLeast(rest, s[1..], x, key, key(s[0]));
      SortedCons(s[0], rest, key);
      [s[0]] + rest
  }

  /** An element no larger than every key of a sorted sequence can go in front of it. */
  lemma SortedCons<T(!new)>(h: T, t: seq<T>, key: T -> int)
    requires SortedBy(t, key)
    requires forall i :: 0 <= i < |t| ==> key(h) <= key(t[i])
    ensures SortedBy([h] + t, key)
  {
    var r := [h] + t;
    forall i, j | 0 <= i < j < |r|
      ensures key(r[i]) <= key(r[j])
    {
      if i > 0 {
        assert r[i] == t[i - 1] && r[j] == t[j - 1];
      } else {
        assert r[j] == t[j - 1];
      }
    }
  }

  /** A lower bound on the keys of u and on key(x) bounds the keys of u with x added. */
  lemma KeysAtLeast<T(!new)>(t: seq<T>, u: seq<T>, x: T, key: T -> int, lo: int)
    requires multiset(t) == multiset(u) + multiset{x}
    requires lo <= key(x)
    requires forall i :: 0 <= i < |u| ==> lo <= key(u[i])
    ensures forall i :: 0 <= i < |t| ==> lo <= key(t[i])
  {
    forall i | 0 <= i < |t|
      ensures lo <= key(t[i])
    {
      assert t[i] in multiset(t);
      if t[i] != x {
        assert t[i] in multiset(u);
        var j :| 0 <= j < |u| && u[j] == t[i];
      }
    }
  }

  /** `orderBy(key)`: the same rows, arranged by ascending key. */
  function SortBy<T(!new)>(s: seq<T>, key: T -> int): (r: seq<T>)
    ensures SortedBy(r, key)
    ensures multiset(r) == multiset(s)
    ensures |r| == |s|
  {
    if s == [] then []
    else
      assert s == [s[0]] + s[1..];
      Insert(s[0], SortBy(s[1..], key), key)
  }

  lemma SortByMembership<T(!new)>(s: seq<T>, key: T -> int, x: T)
    ensures x in SortBy(s, key) <==> x in s
  {
    assert x in SortBy(s, key) <==> multiset(SortBy(s, key))[x] > 0;
    assert x in s <==> multiset(s)[x] > 0;
  }

  // ---------------------------------------------------------------------------
  // Counting rows whose keys are distinct

  /** The set of keys a sequence uses. */
  function KeySet<T(!new)>(s: seq<T>, key: T -> int): (ks: set<int>)
    ensures forall i :: 0 <= i < |s| ==> key(s[i]) in ks
  {
    if s == [] then {} else KeySet(s[..|s| - 1], key) + {key(s[|s| - 1])}
  }

  predicate DistinctKeys<T(!new)>(s: seq<T>, key: T -> int) {
    forall i, j :: 0 <= i < j < |s| ==> key(s[i]) != key(s[j])
  }

  lemma {:induction false} KeySetMembers<T(!new)>(s: seq<T>, key: T -> int, k: int)
    requires k in KeySet(s, key)
    ensures exists i :: 0 <= i < |s| && key(s[i]) == k
  {
    if s != [] && k != key(s[|s| - 1]) {
      KeySetMembers(s[..|s| - 1], key, k);
      var i :| 0 <= i < |s| - 1 && key(s[..|s| - 1][i]) == k;
      assert key(s[i]) == k;
    }
  }

  lemma {:induction false} KeySetOmits<T(!new)>(s: seq<T>, key: T -> int, k: int)
    requires forall i :: 0 <= i < |s| ==> key(s[i]) != k
    ensures k !in KeySet(s, key)
  {
    if s != [] {
      KeySetOmits(s[..|s| - 1], key, k);
    }
  }

  lemma {:induction false} DistinctKeySetSize<T(!new)>(s: seq<T>, key: T -> int)
    requires DistinctKeys(s, key)
    ensures |KeySet(s, key)| == |s|
  {
    if s != [] {
      var init := s[..|s| - 1];
      DistinctKeySetSize(init, key);
      KeySetOmits(init, key, key(s[|s| - 1]));
    }
  }

  /** Selecting rows keeps their keys pairwise different. */
  lemma {:induction false} FilterKeepsDistinct<T(!new)>(s: seq<T>, p: T -> bool, key: T -> int)
    requires DistinctKeys(s, key)
    ensures DistinctKeys(Filter(s, p), key)
  {
    if s != [] {
      var tail := s[1..];
      FilterKeepsDistinct(tail, p, key);
      var rest := Filter(tail, p);
      assert s == [s[0]] + tail;
      if p(s[0]) {
        forall i | 0 <= i < |rest|
          ensures key(rest[i]) != key(s[0])
        {
          FilterMembership(tail, p, rest[i]);
          var j :| 0 <= j < |tail| && tail[j] == rest[i];
          assert s[j + 1] == rest[i];
        }
        DistinctCons(s[0], rest, key);
      }
    }
  }

  /** A key that no row of t uses can go in front of t. */
  lemma DistinctCons<T(!new)>(h: T, t: seq<T>, key: T -> int)
    requires DistinctKeys(t, key)
    requires forall i :: 0 <= i < |t| ==> key(h) != key(t[i])
    ensures DistinctKeys([h] + t, key)
  {
    var r := [h] + t;
    forall i, j | 0 <= i < j < |r|
      ensures key(r[i]) != key(r[j])
    {
      if i > 0 {
        assert r[i] == t[i - 1] && r[j] == t[j - 1];
      } else {
        assert r[j] == t[j - 1];
      }
    }
  }

  /** A set of integers inside [lo, lo + width) has at most `width` members. */
  lemma {:induction false} BoundedSetSize(ks: set<int>, lo: int, width: nat)
    requires forall k :: k in ks ==> lo <= k < lo + width
    ensures |ks| <= width
  {
    if width == 0 {
      assert forall k :: k in ks ==> false;
      assert ks == {};
    } else {
      BoundedSetSize(ks - {lo + width - 1}, lo, width - 1);
    }
  }

  /** Rows with pairwise different keys, all inside [lo, lo + width), number at most `width`. */
  lemma DistinctKeysBound<T(!new)>(s: seq<T>, key: T -> int, lo: int, width: nat)
    requires DistinctKeys(s, key)
    requires forall i :: 0 <= i < |s| ==> lo <= key(s[i]) < lo + width
    ensures |s| <= width
  {
    DistinctKeySetSize(s, key);
    forall k | k in KeySet(s, key)
      ensures lo <= k < lo + width
    {
      KeySetMembers(s, key, k);
    }
    BoundedSetSize(KeySet(s, key), lo, width);
  }
}

=== FILE: strings.dfy ===
/** The PHP string primitives the application relies on: integer-to-string casts, zero-padded
    date fields, `trim`, `ucfirst`, `str_ends_with`, multibyte prefix, and PHP's truthiness of
    strings. Strings are sequences of Unicode code points. */
module Strings {

  import opened Wrappers

  /** PHP treats the strings "" and "0" as false in a boolean context (`if ($s)`, `!$s`,
      `empty($s)`, `$s ? a : b`). */
  predicate Truthy(s: string) {
    s != "" && s != "0"
  }

  // ---------------------------------------------------------------------------
  // Decimal digits

  predicate IsDigit(c: char) {
    '0' <= c <= '9'
  }

  predicate AllDigits(s: string) {
    forall i :: 0 <= i < |s| ==> IsDigit(s[i])
  }

  function DigitChar(d: nat): (c: char)
    requires d < 10
    ensures IsDigit(c)
  {
    "0123456789"[d]
  }

  function DigitValue(c: char): (d: nat)
    requires IsDigit(c)
    ensures d < 10
  {
    c as int - '0' as int
  }

  lemma DigitRoundTrip(d: nat)
    requires d < 10
    ensures DigitValue(DigitChar(d)) == d
  {
  }

  /** PHP's `(string)` cast of a non-negative integer: its shortest decimal form. */
  function NatToString(n: nat): (s: string)
    ensures 1 <= |s| && AllDigits(s)
    ensures n < 10 ==> |s| == 1
    ensures 10 <= n < 100 ==> |s| == 2
    ensures |s| > 1 ==> s[0] != '0'
  {
    if n < 10 then [DigitChar(n)] else NatToString(n / 10) + [DigitChar(n % 10)]
  }

  /** The value of a string of decimal digits (leading zeros allowed). */
  function ParseNat(s: string): nat
    requires AllDigits(s)
  {
    if s == [] then 0 else ParseNat(s[..|s| - 1]) * 10 + DigitValue(s[|s| - 1])
  }

  lemma {:induction false} NatToStringRoundTrip(n: nat)
    ensures ParseNat(NatToString(n)) == n
  {
    var s := NatToString(n);
    if n < 10 {
      assert s[..|s| - 1] == [];
      DigitRoundTrip(n);
    } else {
      assert s[..|s| - 1] == NatToString(n / 10);
      NatToStringRoundTrip(n / 10);
      DigitRoundTrip(n % 10);
    }
  }

  /** `sprintf("%0wd", n)`: n in decimal, left-padded with zeros to at least `width` digits. */
  function Pad(n: nat, width: nat): (s: string)
    ensures AllDigits(s)
    ensures |s| == if |NatToString(n)| < width then width else |NatToString(n)|
  {
    var digits := NatToString(n);
    if |digits| >= width then digits else Zeros(width - |digits|) + digits
  }

  function Zeros(k: nat): (s: string)
    ensures |s| == k && AllDigits(s)
  {
    seq(k, _ => '0')
  }

  lemma {:induction false} ParseNatIgnoresLeadingZeros(k: nat, s: string)
    requires AllDigits(s)
    ensures ParseNat(Zeros(k) + s) == ParseNat(s)
    decreases |s|
  {
    var t := Zeros(k) + s;
    if s == [] {
      assert t == Zeros(k);
      ParseNatOfZeros(k);
    } else {
      assert t[..|t| - 1] == Zeros(k) + s[..|s| - 1];
      ParseNatIgnoresLeadingZeros(k, s[..|s| - 1]);
    }
  }

  lemma {:induction false} ParseNatOfZeros(k: nat)
    ensures ParseNat(Zeros(k)) == 0
  {
    if k > 0 {
      assert Zeros(k)[..k - 1] == Zeros(k - 1);
      ParseNatOfZeros(k - 1);
    }
  }

  /** Padding never changes the value a numeral denotes. */
  lemma PadRoundTrip(n: nat, width: nat)
    ensures ParseNat(Pad(n, width)) == n
  {
    var digits := NatToString(n);
    NatToStringRoundTrip(n);
    ZeroPadValue(digits, width);
  }

  lemma ZeroPadValue(digits: string, width: nat)
    requires AllDigits(digits)
    ensures ParseNat(if |digits| >= width then digits else Zeros(width - |digits|) + digits)
         == ParseNat(digits)
  {
    if |digits| < width {
      ParseNatIgnoresLeadingZeros(width - |digits|, digits);
    }
  }

  /** PHP's `(string)` cast of an integer: a minus sign for negative values. */
  function IntToString(i: int): (s: string)
    ensures |s| >= 1
  {
    if i < 0 then "-" + NatToString(-i) else NatToString(i)
  }

  /** Reads back what IntToString writes; None for anything else. */
  function ParseInt(s: string): Option<int>
  {
    if 2 <= |s| && s[0] == '-' && AllDigits(s[1..]) then Some(-(ParseNat(s[1..]) as int))
    else if 1 <= |s| && AllDigits(s) then Some(ParseNat(s))
    else None
  }

  lemma IntToStringRoundTrip(i: int)
    ensures ParseInt(IntToString(i)) == Some(i)
  {
    if i < 0 {
      assert IntToString(i) == "-" + NatToString(-i);
      NegativeRoundTrip(i);
    } else {
      assert IntToString(i) == NatToString(i);
      NonNegativeRoundTrip(i);
    }
  }

  lemma NegativeRoundTrip(i: int)
    requires i < 0
    ensures ParseInt("-" + NatToString(-i)) == Some(i)
  {
    var n: nat := -i;
    var digits := NatToString(n);
    NatToStringRoundTrip(n);
    var t := "-" + digits;
    assert t[0] == '-' && t[1..] == digits;
    assert ParseInt(t) == Some(-(ParseNat(digits) as int));
  }

  lemma NonNegativeRoundTrip(n: nat)
    ensures ParseInt(NatToString(n)) == Some(n)
  {
    var digits := NatToString(n);
    NatToStringRoundTrip(n);
    assert IsDigit(digits[0]);
  }

  // ---------------------------------------------------------------------------
  // trim

  /** The characters PHP's `trim` strips by default: space, tab, LF, CR, NUL and vertical tab. */
  predicate IsTrimChar(c: char) {
    c == ' ' || c == '\t' || c == '\n' || c == '\r' || c == '\0' || c == '\U{000B}'
  }

  predicate AllTrimChars(s: string) {
    forall i :: 0 <= i < |s| ==> IsTrimChar(s[i])
  }

  /** The index of the first character at or after i that is not a trim character. */
  function SkipForward(s: string, i: nat): (k: nat)
    requires i <= |s|
    ensures i <= k <= |s|
    ensures forall j :: i <= j < k ==> IsTrimChar(s[j])
    ensures k == |s| || !IsTrimChar(s[k])
    decreases |s| - i
  {
    if i < |s| && IsTrimChar(s[i]) then SkipForward(s, i + 1) else i
  }

  /** The index just past the last character before i that is not a trim character. */
  function SkipBackward(s: string, i: nat): (k: nat)
    requires i <= |s|
    ensures k <= i
    ensures forall j :: k <= j < i ==> IsTrimChar(s[j])
    ensures k == 0 || !IsTrimChar(s[k - 1])
  {
    if i > 0 && IsTrimChar(s[i - 1]) then SkipBackward(s, i - 1) else i
  }

  /** `ltrim`: the longest suffix of `s` whose removed prefix is all trim characters. */
  function TrimStart(s: string): (r: string)
    ensures |r| <= |s| && r == s[|s| - |r|..]
    ensures AllTrimChars(s[..|s| - |r|])
    ensures r == [] || !IsTrimChar(r[0])
  {
    s[SkipForward(s, 0)..]
  }

  /** `rtrim`: the longest prefix of `s` whose removed suffix is all trim characters. */
  function TrimEnd(s: string): (r: string)
    ensures |r| <= |s| && r == s[..|r|]
    ensures AllTrimChars(s[|r|..])
    ensures r == [] || !IsTrimChar(r[|r| - 1])
  {
    s[..SkipBackward(s, |s|)]
  }

  /** r is s with only trim characters taken off its two ends. */
  ghost predicate StripsOuter(s: string, r: string) {
    exists i: nat, j: nat :: StripsOuterAt(s, r, i, j)
  }

  /** r is the slice s[i..j], and everything outside it is a trim character. */
  predicate StripsOuterAt(s: string, r: string, i: nat, j: nat) {
    i <= j <= |s| && r == s[i..j] && AllTrimChars(s[..i]) && AllTrimChars(s[j..])
  }

  /** `trim`: s without the trim characters at either end, and nothing else removed. */
  function Trim(s: string): (r: string)
    ensures StripsOuter(s, r)
    ensures r == [] || (!IsTrimChar(r[0]) && !IsTrimChar(r[|r| - 1]))
  {
    var t := TrimStart(s);
    var r := TrimEnd(t);
    var i := |s| - |t|;
    assert r == s[i..i + |r|];
    assert s[i + |r|..] == t[|r|..];
    assert StripsOuterAt(s, r, i, i + |r|);
    r
  }

  /** Only one string is both s stripped at its ends and free of trim characters at its own
      ends: trim's result is determined by those two properties. */
  lemma TrimUnique(s: string, r: string)
    requires StripsOuter(s, r)
    requires r == [] || (!IsTrimChar(r[0]) && !IsTrimChar(r[|r| - 1]))
    ensures r == Trim(s)
  {
    var i: nat, j: nat :| StripsOuterAt(s, r, i, j);
    if i < j {
      assert s[i] == r[0] && s[j - 1] == r[|r| - 1];
    }
    TrimOfSlice(s, i, j);
  }

  /** Cutting trim characters off both ends, down to a slice that starts and ends with other
      characters (or is empty), is what trim does. */
  lemma TrimOfSlice(s: string, i: nat, j: nat)
    requires i <= j <= |s|
    requires AllTrimChars(s[..i]) && AllTrimChars(s[j..])
    requires i == j || (!IsTrimChar(s[i]) && !IsTrimChar(s[j - 1]))
    ensures Trim(s) == s[i..j]
  {
    if i == j {
      AllTrimCharsSplit(s, i, j);
      TrimBlankIff(s);
    } else {
      TrimNotBlank(s, i);
      var t := Trim(s);
      var i': nat, j': nat :| StripsOuterAt(s, t, i', j');
      SameSlice(s, t, i, j, i', j');
    }
  }

  /** A non-empty trim-stripped slice with non-trim ends is the slice between the first and
      the last character that is not a trim character. */
  lemma SameSlice(s: string, t: string, i: nat, j: nat, i': nat, j': nat)
    requires i < j <= |s| && AllTrimChars(s[..i]) && AllTrimChars(s[j..])
    requires !IsTrimChar(s[i]) && !IsTrimChar(s[j - 1])
    requires StripsOuterAt(s, t, i', j')
    requires t != [] && !IsTrimChar(t[0]) && !IsTrimChar(t[|t| - 1])
    ensures t == s[i..j]
  {
    assert s[i'] == t[0] && s[j' - 1] == t[|t| - 1];
    SameEnds(s, i, j, i', j');
  }

  /** A string with a character trim does not strip keeps something after trim. */
  lemma TrimNotBlank(s: string, k: nat)
    requires k < |s| && !IsTrimChar(s[k])
    ensures Trim(s) != []
  {
    TrimBlankIff(s);
  }

  /** trim gives "" exactly for strings made only of trim characters. */
  lemma TrimBlankIff(s: string)
    ensures Trim(s) == [] <==> AllTrimChars(s)
  {
    var t := Trim(s);
    var i: nat, j: nat :| StripsOuterAt(s, t, i, j);
    if t == [] {
      AllTrimCharsSplit(s, i, j);
    }
  }

  /** A string that is all trim characters outside [i, j) and inside it is all trim characters. */
  lemma AllTrimCharsSplit(s: string, i: nat, j: nat)
    requires i == j <= |s|
    requires AllTrimChars(s[..i]) && AllTrimChars(s[j..])
    ensures AllTrimChars(s)
  {
    forall k | 0 <= k < |s|
      ensures IsTrimChar(s[k])
    {
      if k < i {
        assert s[k] == s[..i][k];
      } else {
        assert s[k] == s[j..][k - j];
      }
    }
  }

  /** Two non-empty slices cut between trim-character ends, each starting and ending with a
      non-trim character, are the same slice. */
  lemma SameEnds(s: string, i: nat, j: nat, i': nat, j': nat)
    requires i < j <= |s| && i' < j' <= |s|
    requires AllTrimChars(s[..i]) && AllTrimChars(s[j..])
    requires AllTrimChars(s[..i']) && AllTrimChars(s[j'..])
    requires !IsTrimChar(s[i]) && !IsTrimChar(s[j - 1])
    requires !IsTrimChar(s[i']) && !IsTrimChar(s[j' - 1])
    ensures i == i' && j == j'
  {
  }

  /** A string that neither starts nor ends with a trim character is its own trim;
      in particular trimming twice is trimming once. */
  lemma TrimFixpoint(s: string)
    requires s == [] || (!IsTrimChar(s[0]) && !IsTrimChar(s[|s| - 1]))
    ensures Trim(s) == s
  {
  }

  lemma TrimIdempotent(s: string)
    ensures Trim(Trim(s)) == Trim(s)
  {
    TrimFixpoint(Trim(s));
  }

  /** A request field as a controller receives it: the framework's global middleware trims
      every string input and then turns an empty string into null. */
  function InputField(raw: Option<string>): (v: Option<string>)
    ensures v.None? <==> raw.None? || AllTrimChars(raw.value)
    ensures v.Some? ==> v.value == Trim(raw.value) && v.value != []
  {
    match raw
    case None => None
    case Some(x) =>
      TrimBlankIff(x);
      if Trim(x) == [] then None else Some(Trim(x))
  }

  /** Passing a value through the middleware a second time changes nothing. */
  lemma InputFieldIdempotent(raw: Option<string>)
    ensures InputField(InputField(raw)) == InputField(raw)
  {
    if raw.Some? && Trim(raw.value) != [] {
      TrimIdempotent(raw.value);
    }
  }

  // ---------------------------------------------------------------------------
  // Other helpers

  /** `mb_substr(s, 0, n)`: the first n code points (all of s when it is shorter). */
  function Take(s: string, n: nat): (r: string)
    ensures r <= s
    ensures |r| == if |s| < n then |s| else n
  {
    if |s| <= n then s else s[..n]
  }

  /** `str_ends_with(s, suffix)`. */
  predicate EndsWith(s: string, suffix: string) {
    |suffix| <= |s| && s[|s| - |suffix|..] == suffix
  }

  function AsciiUpper(c: char): (u: char)
  {
    if 'a' <= c <= 'z' then (c as int - 32) as char else c
  }

  /** `ucfirst`: the first character upper-cased (ASCII letters only), the rest unchanged. */
  function Ucfirst(s: string): (r: string)
    ensures |r| == |s|
    ensures |s| > 0 ==> r[0] == AsciiUpper(s[0]) && r[1..] == s[1..]
  {
    if s == [] then s else [AsciiUpper(s[0])] + s[1..]
  }
}

=== FILE: task_notification.dfy ===
/** The queued job that announces a task to every user. It re-reads the task, skips it when it
    is gone, inactive or not yet started, and otherwise sends one push to the `all_users`
    topic. A failed send is only logged: the job ends normally either way. */
module TaskNotification {

  import opened Wrappers
  import opened Strings
  import opened Calendar
  import opened Tasks
  import opened Fcm

  const DefaultExerciseTitle: string := "Faith Exercise"

  datatype JobOutcome =
    | TaskMissing
    | TaskInactive
    | NotYetStarted
    | Attempted(delivery: Delivery)

  /** Carbon's `isFuture` on the start date: the task has not started at `now`. */
  predicate StartsAfter(task: Task, now: Instant) {
    task.startDate.Some? && StartInstant(task) > now
  }

  /** The exercise title shown before the description: the exercise's title, or the default
      when the task has no exercise or the exercise has no title. */
  function ExerciseLabel(exerciseTitle: Option<string>): (shown: string)
    ensures exerciseTitle.Some? ==> shown == exerciseTitle.value
    ensures exerciseTitle.None? ==> shown == DefaultExerciseTitle
  {
    exerciseTitle.GetOr(DefaultExerciseTitle)
  }

  /** `trim(label + ": " + description)`; the `": "` separator is dropped when the label is
      falsy in PHP ("" or "0"). */
  function TaskBody(title: string, description: Option<string>): (body: string)
    ensures StripsOuter((if Truthy(title) then title + ": " else "") + description.GetOr(""), body)
    ensures body == [] || (!IsTrimChar(body[0]) && !IsTrimChar(body[|body| - 1]))
  {
    Trim((if Truthy(title) then title + ": " else "") + description.GetOr(""))
  }

  function TaskData(task: Task): (data: map<string, Value>)
  {
    map[
      "type" := VString("task"),
      "task_id" := VString(IntToString(task.id)),
      "exercise_id" := VString(IntToString(task.exerciseId)),
      "schedule" := VString(task.schedule.GetOr(""))
    ]
  }

  /** The payload has exactly four string entries; the ids read back as the task's ids. */
  lemma TaskDataShape(task: Task)
    ensures var out := StringifyData(TaskData(task));
      && out.Keys == {"type", "task_id", "exercise_id", "schedule"}
      && out["type"] == "task"
      && ParseInt(out["task_id"]) == Some(task.id as int)
      && ParseInt(out["exercise_id"]) == Some(task.exerciseId as int)
      && out["schedule"] == task.schedule.GetOr("")
  {
    IntToStringRoundTrip(task.id);
    IntToStringRoundTrip(task.exerciseId);
  }

  /** `task`: the task with the job's id, if it still exists; `exerciseTitle`: the title of its
      exercise, if there is one. */
  function HandleJob(task: Option<Task>, exerciseTitle: Option<string>, now: Instant, gw: Gateway): (o: JobOutcome)
    ensures o.Attempted? <==> task.Some? && task.value.isActive && !StartsAfter(task.value, now)
    ensures task.None? ==> o == TaskMissing
    ensures o.Attempted? ==> (o.delivery.posted.Some? <==> Configured(gw))
    ensures o.Attempted? && o.delivery.posted.Some? ==> var m := o.delivery.posted.value;
      && m.target == Topic(BroadcastTopic)
      && m.title == task.value.title
      && m.body == TaskBody(ExerciseLabel(exerciseTitle), task.value.description)
      && m.data == StringifyData(TaskData(task.value))
  {
    if task.None? then TaskMissing
    else if !task.value.isActive then TaskInactive
    else if StartsAfter(task.value, now) then NotYetStarted
    else
      var t := task.value;
      Attempted(SendToTopic(gw, BroadcastTopic, t.title, TaskBody(ExerciseLabel(exerciseTitle), t.description), TaskData(t)))
  }

  /** A single trailing blank after an otherwise trimmed string is all `trim` removes. */
  lemma TrailingBlankTrimmed(t: string)
    requires t != [] && !IsTrimChar(t[0]) && !IsTrimChar(t[|t| - 1])
    ensures Trim(t + " ") == t
  {
    var u := t + " ";
    assert SkipForward(u, 0) == 0;
    assert SkipBackward(u, |u| - 1) == |u| - 1;
    assert SkipBackward(u, |u|) == |u| - 1;
    assert u[..|u| - 1] == t;
  }

  /** With no exercise and no description the body is the default title and a colon: trim
      removes the space the separator leaves at the end. */
  lemma DefaultBody()
    ensures TaskBody(ExerciseLabel(None), None) == "Faith Exercise:"
  {
    var t := "Faith Exercise:";
    assert DefaultExerciseTitle + ": " + "" == t + " ";
    TrailingBlankTrimmed(t);
  }

  /** A falsy exercise title ("" or "0") contributes nothing: the body is the trimmed
      description. */
  lemma FalsyTitleBody(title: string, description: Option<string>)
    requires !Truthy(title)
    ensures TaskBody(title, description) == Trim(description.GetOr(""))
  {
    assert (if Truthy(title) then title + ": " else "") + description.GetOr("") == description.GetOr("");
  }

  /** Title and description that carry no surrounding blanks are joined by ": " verbatim. */
  lemma TitledBody(title: string, description: string)
    requires Truthy(title) && !IsTrimChar(title[0])
    requires description != [] && !IsTrimChar(description[|description| - 1])
    ensures TaskBody(title, Some(description)) == title + ": " + description
  {
    var joined := title + ": " + description;
    assert joined[0] == title[0];
    assert joined[|joined| - 1] == description[|description| - 1];
    TrimFixpoint(joined);
  }

  /** The decision made when the task was created is consistent with the job's guards: a job
      dispatched for an active task runs, at or after its due time, past every guard and
      attempts exactly one send. */
  lemma DispatchedJobSends(task: Task, created: Instant, runAt: Instant, exerciseTitle: Option<string>, gw: Gateway)
    requires DecideDispatch(task, created).DispatchNow? ==> created <= runAt
    requires DecideDispatch(task, created).DispatchAt? ==> DecideDispatch(task, created).at <= runAt
    requires task.isActive
    ensures HandleJob(Some(task), exerciseTitle, runAt, gw).Attempted?
  {
  }

  /** An inactive task is never announced, whenever the job runs. */
  lemma InactiveTaskNeverSends(task: Task, exerciseTitle: Option<string>, now: Instant, gw: Gateway)
    requires !task.isActive
    ensures HandleJob(Some(task), exerciseTitle, now, gw) == TaskInactive
  {
  }
}

=== FILE: task_progress.dfy ===
/** Marking a task done for a period. A user ticks a task once (`single`), once per calendar
    day (`daily`) or once per ISO week (`weekly`); the tick is stored under a period key that
    names the day or week. Ticking again removes the mark. Daily tasks with a duration only
    accept days inside their run. */
module TaskProgress {

  import opened Wrappers
  import opened Strings
  import opened Calendar
  import opened Tasks

  predicate ValidPeriod(period: string) {
    period == "single" || period == "daily" || period == "weekly"
  }

  /** The key under which a tick for `period` is stored. `date` is the requested date, if any;
      without one the current instant is used. Unknown periods fall back to "single". */
  function MakePeriodKey(period: string, date: Option<Instant>, now: Instant): (key: string)
    ensures period == "daily" ==> ParseDateString(key) == Some(DayToDate(DayOf(date.GetOr(now))))
    ensures period == "weekly" ==> ParseWeekString(key) == Some(IsoWeekOf(DayOf(date.GetOr(now))))
    ensures period != "daily" && period != "weekly" ==> key == "single"
  {
    if period == "single" then "single"
    else
      var day := DayOf(date.GetOr(now));
      if period == "daily" then DailyKey(day)
      else if period == "weekly" then WeeklyKey(day)
      else "single"
  }

  /** A single task has one key, whatever the date. */
  lemma SingleKeyIgnoresDate(d1: Option<Instant>, n1: Instant, d2: Option<Instant>, n2: Instant)
    ensures MakePeriodKey("single", d1, n1) == MakePeriodKey("single", d2, n2) == "single"
  {
  }

  /** Two instants get the same daily key exactly when they fall on the same calendar day. */
  lemma DailyKeySameDayIff(a: Instant, b: Instant, now: Instant)
    ensures MakePeriodKey("daily", Some(a), now) == MakePeriodKey("daily", Some(b), now)
        <==> DayOf(a) == DayOf(b)
  {
    DailyKeyInjective(DayOf(a), DayOf(b));
  }

  /** Two instants get the same weekly key exactly when they fall in the same Monday-to-Sunday
      week. */
  lemma WeeklyKeySameWeekIff(a: Instant, b: Instant, now: Instant)
    ensures MakePeriodKey("weekly", Some(a), now) == MakePeriodKey("weekly", Some(b), now)
        <==> WeekIndex(DayOf(a)) == WeekIndex(DayOf(b))
  {
    Calendar.WeeklyKeySameWeekIff(DayOf(a), DayOf(b));
  }

  // ---------------------------------------------------------------------------
  // The duration window of daily tasks

  /** Only daily ticks of a task with a non-zero duration and a start date are restricted. */
  predicate WindowApplies(task: Task, period: string) {
    period == "daily" && task.durationDays.Some? && task.durationDays.value != 0 && task.startDate.Some?
  }

  /** The last second of the task's run: 23:59:59 of day start + duration - 1. The value can
      lie before the start when the duration is negative. */
  function WindowEnd(task: Task): int
    requires task.durationDays.Some? && task.startDate.Some?
  {
    StartInstant(task) + (task.durationDays.value - 1) * SecondsPerDay + SecondsPerDay - 1
  }

  /** The window's instant bounds, read as day bounds. */
  lemma WindowByDay(task: Task, target: Instant)
    requires task.durationDays.Some? && task.startDate.Some?
    ensures target < StartInstant(task) <==> DayOf(target) < task.startDate.value
    ensures target > WindowEnd(task) <==> DayOf(target) - task.startDate.value >= task.durationDays.value
  {
    var first := task.startDate.value;
    var last := first + task.durationDays.value - 1;
    DayOfBounds(target, first);
    if last >= 0 {
      DayOfBounds(target, last);
    }
  }

  /** Rejects a daily tick whose day lies outside [start, start + duration - 1] with 422.
      On success it returns the date the key is computed from: when the window applies and
      no date was given, today's date (00:00 of the current day). */
  function AssertWithinDuration(task: Task, period: string, date: Option<Instant>, now: Instant): (r: Result<Option<Instant>>)
    ensures !WindowApplies(task, period) ==> r == Ok(date)
    ensures WindowApplies(task, period) ==>
      var first := task.startDate.value;
      var day := DayOf(date.GetOr(now));
      (r.Ok? <==> first <= day && day - first < task.durationDays.value)
    ensures r.Err? ==> r.failure == Abort(422)
    ensures r.Ok? && WindowApplies(task, period) ==> r.value == Some(date.GetOr(StartOfDay(DayOf(now))))
  {
    if !WindowApplies(task, period) then Ok(date)
    else
      var target := date.GetOr(now);
      WindowByDay(task, target);
      if target < StartInstant(task) || target > WindowEnd(task) then Err(Abort(422))
      else Ok(Some(date.GetOr(StartOfDay(DayOf(now)))))
  }

  /** Substituting today's date for a missing date never changes the period key. */
  lemma DefaultDateKeepsKey(period: string, now: Instant)
    ensures MakePeriodKey(period, Some(StartOfDay(DayOf(now))), now) == MakePeriodKey(period, None, now)
  {
    DayOfStartOfDay(DayOf(now));
  }

  /** Worked example: a three-day task starting on day `first` accepts exactly its three days. */
  lemma ThreeDayWindow(task: Task, first: Day, day: Day, now: Instant)
    requires task.startDate == Some(first) && task.durationDays == Some(3)
    ensures AssertWithinDuration(task, "daily", Some(StartOfDay(day)), now).Ok?
        <==> first <= day <= first + 2
  {
    DayOfStartOfDay(day);
  }

  // ---------------------------------------------------------------------------
  // The ledger

  /** A tick is identified by user, task, period and period key. */
  datatype ProgressKey = ProgressKey(userId: nat, taskId: nat, period: string, periodKey: string)

  datatype Progress = Progress(key: ProgressKey, doneAt: Instant)

  type Ledger = set<Progress>

  /** The unique index on (user_id, task_id, period, period_key). */
  predicate OneEntryPerKey(ledger: Ledger) {
    forall a, b :: a in ledger && b in ledger && a.key == b.key ==> a == b
  }

  function Keys(ledger: Ledger): set<ProgressKey> {
    set p | p in ledger :: p.key
  }

  /** Validates the period, applies the duration window and computes the key a request acts
      on; `toggle` and `show` share it. */
  function ResolveKey(userId: nat, task: Task, period: string, date: Option<Instant>, now: Instant): (r: Result<ProgressKey>)
    ensures r.Ok? <==> ValidPeriod(period) && AssertWithinDuration(task, period, date, now).Ok?
    ensures !ValidPeriod(period) ==> r == Err(ValidationFailed)
    ensures r.Ok? ==> r.value == ProgressKey(userId, task.id, period, MakePeriodKey(period, date, now))
  {
    if !ValidPeriod(period) then Err(ValidationFailed) else
    var effective :- AssertWithinDuration(task, period, date, now);
    DefaultDateKeepsKey(period, now);
    Ok(ProgressKey(userId, task.id, period, MakePeriodKey(period, effective, now)))
  }

  /** The ledger without the tick under key k. */
  function Without(ledger: Ledger, k: ProgressKey): Ledger {
    set p | p in ledger && p.key != k
  }

  lemma KeysWithout(ledger: Ledger, k: ProgressKey)
    ensures Keys(Without(ledger, k)) == Keys(ledger) - {k}
    ensures forall p :: p in Without(ledger, k) <==> p in ledger && p.key != k
  {
    forall q | q in Keys(ledger) - {k}
      ensures q in Keys(Without(ledger, k))
    {
      var p :| p in ledger && p.key == q;
      assert p in Without(ledger, k);
    }
  }

  lemma KeysWith(ledger: Ledger, e: Progress)
    ensures Keys(ledger + {e}) == Keys(ledger) + {e.key}
  {
    forall q | q in Keys(ledger)
      ensures q in Keys(ledger + {e})
    {
      var p :| p in ledger && p.key == q;
      assert p in ledger + {e};
    }
    assert e in ledger + {e};
  }

  /** A tick under a fresh key keeps the index unique. */
  lemma OneEntryWith(ledger: Ledger, e: Progress)
    requires OneEntryPerKey(ledger) && e.key !in Keys(ledger)
    ensures OneEntryPerKey(ledger + {e})
  {
    forall a | a in ledger
      ensures a.key != e.key
    {
      assert a.key in Keys(ledger);
    }
  }

  /** Removing a tick that was just added under a fresh key restores the ledger. */
  lemma WithoutAfterWith(ledger: Ledger, e: Progress)
    requires e.key !in Keys(ledger)
    ensures Without(ledger + {e}, e.key) == ledger
  {
    forall a | a in ledger
      ensures a.key != e.key
    {
      assert a.key in Keys(ledger);
    }
  }

  datatype Toggled = Toggled(done: bool, ledger: Ledger)

  /** Deletes the tick under the request's key if there is one (done = false), otherwise
      records it with `doneAt = now` (done = true). Rejected requests leave no ledger. */
  function Toggle(ledger: Ledger, userId: nat, task: Task, period: string, date: Option<Instant>, now: Instant): (r: Result<Toggled>)
    requires OneEntryPerKey(ledger)
    ensures r.Ok? <==> ResolveKey(userId, task, period, date, now).Ok?
    ensures r.Err? ==> r.failure == ResolveKey(userId, task, period, date, now).failure
    ensures r.Ok? ==> var k := ResolveKey(userId, task, period, date, now).value;
      && OneEntryPerKey(r.value.ledger)
      && (r.value.done <==> k !in Keys(ledger))
      && (k in Keys(r.value.ledger) <==> r.value.done)
      && (r.value.done ==> Progress(k, now) in r.value.ledger)
      && (forall p :: p in ledger && p.key != k ==> p in r.value.ledger)
      && (forall p :: p in r.value.ledger && p.key != k ==> p in ledger)
  {
    var k :- ResolveKey(userId, task, period, date, now);
    if k in Keys(ledger) then
      KeysWithout(ledger, k);
      Ok(Toggled(false, Without(ledger, k)))
    else
      KeysWith(ledger, Progress(k, now));
      OneEntryWith(ledger, Progress(k, now));
      Ok(Toggled(true, ledger + {Progress(k, now)}))
  }

  /** Whether the tick the same request would toggle is present. */
  function Show(ledger: Ledger, userId: nat, task: Task, period: string, date: Option<Instant>, now: Instant): (r: Result<bool>)
    ensures r.Ok? <==> ResolveKey(userId, task, period, date, now).Ok?
    ensures r.Ok? ==> (r.value <==> ResolveKey(userId, task, period, date, now).value in Keys(ledger))
  {
    var k :- ResolveKey(userId, task, period, date, now);
    Ok(k in Keys(ledger))
  }

  /** `show` reports the opposite of what `toggle` is about to do, and after a toggle it
      reports the toggle's result. */
  lemma ShowAgreesWithToggle(ledger: Ledger, userId: nat, task: Task, period: string, date: Option<Instant>, now: Instant)
    requires OneEntryPerKey(ledger)
    ensures var t := Toggle(ledger, userId, task, period, date, now);
      && Show(ledger, userId, task, period, date, now).Ok? == t.Ok?
      && (t.Ok? ==> Show(ledger, userId, task, period, date, now).value == !t.value.done)
      && (t.Ok? ==> Show(t.value.ledger, userId, task, period, date, now) == Ok(t.value.done))
  {
  }

  /** Toggling twice with the same request restores the set of ticked keys, and restores the
      ledger itself when the first toggle added the tick. */
  lemma ToggleTwice(ledger: Ledger, userId: nat, task: Task, period: string, date: Option<Instant>, now: Instant)
    requires OneEntryPerKey(ledger)
    requires Toggle(ledger, userId, task, period, date, now).Ok?
    ensures var first := Toggle(ledger, userId, task, period, date, now).value;
      var second := Toggle(first.ledger, userId, task, period, date, now);
      && second.Ok?
      && second.value.done == !first.done
      && Keys(second.value.ledger) == Keys(ledger)
      && (first.done ==> second.value.ledger == ledger)
  {
    var k := ResolveKey(userId, task, period, date, now).value;
    var first := Toggle(ledger, userId, task, period, date, now).value;
    var second := Toggle(first.ledger, userId, task, period, date, now).value;
    if first.done {
      assert first.ledger == ledger + {Progress(k, now)};
      assert k in Keys(first.ledger);
      assert second.ledger == Without(first.ledger, k);
      WithoutAfterWith(ledger, Progress(k, now));
    } else {
      assert first.ledger == Without(ledger, k);
      KeysWithout(ledger, k);
      assert second.ledger == first.ledger + {Progress(k, now)};
      KeysWith(first.ledger, Progress(k, now));
    }
  }
}

=== FILE: tasks.dfy ===
/** Daily exercise tasks and how the admin panel creates them. Creating an active task also
    decides when its push notification goes out: at once when the task has already started,
    or at the start of its first day otherwise. The queue itself is not modelled; the decision
    is returned as a value. */
module Tasks {

  import opened Wrappers
  import opened Calendar

  datatype Task = Task(
    id: nat,
    exerciseId: nat,
    title: string,
    description: Option<string>,
    schedule: Option<string>,
    durationDays: Option<int>,
    startDate: Option<Day>,
    isActive: bool,
    sortOrder: Option<int>)

  /** The admin form as submitted: every field may be missing. */
  datatype TaskForm = TaskForm(
    exerciseId: Option<nat>,
    title: Option<string>,
    description: Option<string>,
    durationDays: Option<int>,
    startDate: Option<Day>,
    isActive: Option<bool>,
    sortOrder: Option<int>,
    schedule: Option<string>)

  /** The store rules: an existing exercise, a non-empty title of at most 255 characters,
      non-negative duration and sort order when given, a schedule of at most 255 characters. */
  predicate ValidTaskForm(form: TaskForm, exercises: set<nat>) {
    && form.exerciseId.Some? && form.exerciseId.value in exercises
    && form.title.Some? && form.title.value != "" && |form.title.value| <= 255
    && (form.durationDays.None? || form.durationDays.value >= 0)
    && (form.sortOrder.None? || form.sortOrder.value >= 0)
    && (form.schedule.None? || |form.schedule.value| <= 255)
  }

  /** When the notification job for a new task runs. */
  datatype Dispatch =
    | NoDispatch
    | DispatchNow(taskId: nat)
    | DispatchAt(taskId: nat, at: Instant)

  /** The instant a task starts: 00:00 of its start date. */
  function StartInstant(task: Task): Instant
    requires task.startDate.Some?
  {
    StartOfDay(task.startDate.value)
  }

  /** A task whose start is strictly before `now` (Carbon's `isPast`) is due at once; a start
      at or after `now` delays the job until exactly that start. */
  function DecideDispatch(task: Task, now: Instant): (d: Dispatch)
    ensures !task.isActive <==> d == NoDispatch
    ensures d.DispatchNow? <==> task.isActive && (task.startDate.None? || StartInstant(task) < now)
    ensures d.DispatchAt? ==> task.startDate.Some? && d.at == StartInstant(task) && now <= d.at
    ensures !d.NoDispatch? ==> d.taskId == task.id
  {
    if !task.isActive then NoDispatch
    else if task.startDate.None? || StartInstant(task) < now then DispatchNow(task.id)
    else DispatchAt(task.id, StartInstant(task))
  }

  datatype Created = Created(task: Task, dispatch: Dispatch)

  /** Creates the task with the next id, `is_active` defaulting to false, and then decides its
      single dispatch. The rules let `schedule` be missing, but the `tasks.schedule` column is
      NOT NULL without a default: such an insert fails with a database error, which surfaces
      as a 500 before any task exists or any job is dispatched. */
  function StoreTask(form: TaskForm, exercises: set<nat>, nextId: nat, now: Instant): (r: Result<Created>)
    ensures r.Ok? <==> ValidTaskForm(form, exercises) && form.schedule.Some?
    ensures r.Err? ==> r.failure == if ValidTaskForm(form, exercises) then Abort(500) else ValidationFailed
    ensures r.Ok? ==> var t := r.value.task;
      && t.id == nextId
      && t.exerciseId == form.exerciseId.value && t.title == form.title.value
      && t.description == form.description && t.schedule == form.schedule
      && t.durationDays == form.durationDays && t.startDate == form.startDate
      && t.sortOrder == form.sortOrder
      && (t.isActive <==> form.isActive == Some(true))
      && r.value.dispatch == DecideDispatch(t, now)
  {
    if !ValidTaskForm(form, exercises) then Err(ValidationFailed)
    else if form.schedule.None? then Err(Abort(500))
    else
      var task := Task(
        nextId, form.exerciseId.value, form.title.value, form.description, form.schedule,
        form.durationDays, form.startDate, form.isActive.GetOr(false), form.sortOrder);
      Ok(Created(task, DecideDispatch(task, now)))
  }

  /** A form that passes validation without a schedule creates nothing and announces nothing,
      however active and due it is. */
  lemma MissingScheduleFails(form: TaskForm, exercises: set<nat>, nextId: nat, now: Instant)
    requires ValidTaskForm(form, exercises) && form.schedule.None?
    ensures StoreTask(form, exercises, nextId, now) == Err(Abort(500))
  {
  }

  /** A form without `is_active` creates an inactive task, which is never announced. */
  lemma StoreWithoutActiveFlagSendsNothing(form: TaskForm, exercises: set<nat>, nextId: nat, now: Instant)
    requires ValidTaskForm(form, exercises) && form.schedule.Some? && form.isActive.None?
    ensures StoreTask(form, exercises, nextId, now).Ok?
    ensures !StoreTask(form, exercises, nextId, now).value.task.isActive
    ensures StoreTask(form, exercises, nextId, now).value.dispatch == NoDispatch
  {
  }
}

=== FILE: webhook.dfy ===
/** Authentication of incoming webhook calls (the blog's "new post" hook). Four checks run in
    order and the first failure answers the request: the shared API key (401), the calling
    domain (403), the age of the request timestamp (401) and an optional HMAC-SHA256
    signature (401). URL host extraction, the `(int)` cast of the timestamp header and HMAC
    itself (RFC 2104 over SHA-256, hex-encoded) are parameters of the model. */
module Webhook {

  import opened Wrappers
  import opened Strings

  /** apiKey and secret are absent when not configured. */
  datatype WebhookConfig = WebhookConfig(apiKey: Option<string>, secret: Option<string>, allowedDomains: seq<string>)

  /** The headers X-Webhook-Key, Origin, Referer, X-Webhook-Timestamp and X-Webhook-Signature,
      each absent when not sent, and the raw body. */
  datatype WebhookRequest = WebhookRequest(
    key: Option<string>,
    origin: Option<string>,
    referer: Option<string>,
    timestamp: Option<string>,
    signature: Option<string>,
    body: string)

  /** Admit hands the request on to the controller; Deny answers with a JSON error; Fault is
      the TypeError `hash_equals` throws when the API key is not configured (a 500). */
  datatype Verdict = Admit | Deny(status: nat, error: string) | Fault

  /** The widest accepted difference, in seconds, between the timestamp header and now. */
  const MaxSkew: nat := 300

  /** Origin when sent, otherwise Referer, otherwise the empty string. */
  function CallerUrl(req: WebhookRequest): (url: string)
    ensures req.origin.Some? ==> url == req.origin.value
    ensures req.origin.None? && req.referer.Some? ==> url == req.referer.value
    ensures req.origin.None? && req.referer.None? ==> url == ""
  {
    match req.origin
    case Some(o) => o
    case None => req.referer.GetOr("")
  }

  /** A host belongs to a domain when it is the domain or one of its subdomains. */
  predicate HostMatches(host: string, domain: string) {
    host == domain || EndsWith(host, "." + domain)
  }

  /** The check stops at the first matching domain; the answer is whether any matches. */
  function DomainAllowed(host: string, domains: seq<string>): (allowed: bool)
    ensures allowed <==> exists i :: 0 <= i < |domains| && HostMatches(host, domains[i])
  {
    if domains == [] then false
    else HostMatches(host, domains[0]) || DomainAllowed(host, domains[1..])
  }

  /** A host ending in the domain name matches exactly when what precedes the name is empty
      or ends with a dot: `api.example.com` matches `example.com`, `evilexample.com` does not. */
  lemma HostSuffixMatch(prefix: string, domain: string)
    ensures HostMatches(prefix + domain, domain) <==> prefix == [] || prefix[|prefix| - 1] == '.'
  {
    var host := prefix + domain;
    if prefix != [] {
      var tail := host[|host| - |domain| - 1..];
      assert tail == [prefix[|prefix| - 1]] + domain;
      assert EndsWith(host, "." + domain) <==> tail == "." + domain;
      if tail == "." + domain {
        assert tail[0] == '.';
      }
      assert host != domain by {
        assert |host| > |domain|;
      }
    } else {
      assert host == domain;
    }
  }

  lemma HostMatchExamples()
    ensures HostMatches("api.example.com", "example.com")
    ensures !HostMatches("evilexample.com", "example.com")
  {
    HostSuffixMatch("api.", "example.com");
    assert "api." + "example.com" == "api.example.com";
    HostSuffixMatch("evil", "example.com");
    assert "evil" + "example.com" == "evilexample.com";
  }

  predicate KeyAccepted(cfg: WebhookConfig, req: WebhookRequest) {
    req.key.Some? && Truthy(req.key.value) && cfg.apiKey == Some(req.key.value)
  }

  /** An empty (falsy) caller URL skips the domain check: server-to-server calls send none. */
  predicate OriginAccepted(cfg: WebhookConfig, req: WebhookRequest, hostOf: string -> Option<string>) {
    var url := CallerUrl(req);
    !Truthy(url) || DomainAllowed(hostOf(url).GetOr(""), cfg.allowedDomains)
  }

  function Abs(x: int): nat {
    if x < 0 then -x else x
  }

  /** A timestamp, when sent, is at most MaxSkew seconds away from now in either direction. */
  predicate Fresh(req: WebhookRequest, now: int, toInt: string -> int) {
    req.timestamp.None? || !Truthy(req.timestamp.value) || Abs(now - toInt(req.timestamp.value)) <= MaxSkew
  }

  /** The text that is signed: the timestamp header (empty when absent), a dot, the body. */
  function SignedText(req: WebhookRequest): string {
    req.timestamp.GetOr("") + "." + req.body
  }

  /** The signature is checked only when both a signature and a secret are present. */
  predicate SignatureAccepted(cfg: WebhookConfig, req: WebhookRequest, hmac: (string, string) -> string) {
    || req.signature.None? || !Truthy(req.signature.value)
    || cfg.secret.None? || !Truthy(cfg.secret.value)
    || req.signature.value == hmac(SignedText(req), cfg.secret.value)
  }

  /** The middleware: `hostOf` is `parse_url(url, PHP_URL_HOST)`, `toInt` PHP's `(int)` cast,
      `hmac(text, key)` the hex HMAC-SHA256 of text under key, `now` the current Unix time. */
  function Verify(cfg: WebhookConfig, req: WebhookRequest, now: int,
                  hostOf: string -> Option<string>, toInt: string -> int,
                  hmac: (string, string) -> string): (v: Verdict)
    ensures v == Admit <==>
      && KeyAccepted(cfg, req) && OriginAccepted(cfg, req, hostOf)
      && Fresh(req, now, toInt) && SignatureAccepted(cfg, req, hmac)
    ensures v == Fault <==> req.key.Some? && Truthy(req.key.value) && cfg.apiKey.None?
    ensures v == Deny(403, "Forbidden domain") <==> KeyAccepted(cfg, req) && !OriginAccepted(cfg, req, hostOf)
    ensures (req.key.None? || !Truthy(req.key.value) || (cfg.apiKey.Some? && cfg.apiKey.value != req.key.value))
      ==> v == Deny(401, "Unauthorized")
    ensures KeyAccepted(cfg, req) && OriginAccepted(cfg, req, hostOf) && !Fresh(req, now, toInt)
      ==> v == Deny(401, "Request expired")
    ensures (KeyAccepted(cfg, req) && OriginAccepted(cfg, req, hostOf) && Fresh(req, now, toInt)
             && !SignatureAccepted(cfg, req, hmac))
      ==> v == Deny(401, "Invalid signature")
    ensures v.Deny? ==> v.status == 401 || v.status == 403
  {
    if req.key.None? || !Truthy(req.key.value) then Deny(401, "Unauthorized")
    else if cfg.apiKey.None? then Fault
    else if cfg.apiKey.value != req.key.value then Deny(401, "Unauthorized")
    else if !OriginAccepted(cfg, req, hostOf) then Deny(403, "Forbidden domain")
    else if !Fresh(req, now, toInt) then Deny(401, "Request expired")
    else if !SignatureAccepted(cfg, req, hmac) then Deny(401, "Invalid signature")
    else Admit
  }

  /** Whatever else the request carries, a wrong or missing key is refused first. */
  lemma WrongKeyRefused(cfg: WebhookConfig, req: WebhookRequest, now: int,
                        hostOf: string -> Option<string>, toInt: string -> int, hmac: (string, string) -> string)
    requires cfg.apiKey.Some? && req.key != cfg.apiKey
    ensures Verify(cfg, req, now, hostOf, toInt, hmac) == Deny(401, "Unauthorized")
  {
  }

  /** An admitted request carries the configured key and, when a secret is configured and a
      signature sent, the signature of its timestamp and body. */
  lemma AdmittedRequestIsAuthentic(cfg: WebhookConfig, req: WebhookRequest, now: int,
                                 hostOf: string -> Option<string>, toInt: string -> int, hmac: (string, string) -> string)
    requires Verify(cfg, req, now, hostOf, toInt, hmac) == Admit
    ensures req.key.Some? && cfg.apiKey == req.key && Truthy(req.key.value)
    ensures req.signature.Some? && Truthy(req.signature.value) && cfg.secret.Some? && Truthy(cfg.secret.value)
      ==> req.signature.value == hmac(req.timestamp.GetOr("") + "." + req.body, cfg.secret.value)
  {
  }

  /** The replay window is closed: a timestamp exactly MaxSkew seconds old is accepted, one
      second more is refused as expired. */
  lemma ReplayWindowBoundary(cfg: WebhookConfig, req: WebhookRequest, now: int,
                             hostOf: string -> Option<string>, toInt: string -> int, hmac: (string, string) -> string)
    requires KeyAccepted(cfg, req) && OriginAccepted(cfg, req, hostOf) && SignatureAccepted(cfg, req, hmac)
    requires req.timestamp.Some? && Truthy(req.timestamp.value)
    ensures toInt(req.timestamp.value) == now - 300 ==> Verify(cfg, req, now, hostOf, toInt, hmac) == Admit
    ensures toInt(req.timestamp.value) == now - 301 ==> Verify(cfg, req, now, hostOf, toInt, hmac) == Deny(401, "Request expired")
  {
  }

  /** A request without Origin and Referer is never refused for its domain, and one whose
      origin names no allowed domain is refused with 403 even when the allow-list is empty. */
  lemma OriginCases(cfg: WebhookConfig, req: WebhookRequest, hostOf: string -> Option<string>)
    ensures req.origin.None? && req.referer.None? ==> OriginAccepted(cfg, req, hostOf)
    ensures cfg.allowedDomains == [] && Truthy(CallerUrl(req)) ==> !OriginAccepted(cfg, req, hostOf)
  {
  }
}

=== FILE: wrappers.dfy ===
/** Failure-compatible wrappers shared by every module of the model. */
module Wrappers {

  /** A value that may be absent: PHP's `null`, or a request field that was not sent. */
  datatype Option<+T> = None | Some(value: T) {

    function GetOr(default: T): T {
      match this
      case Some(v) => v
      case None => default
    }

    /** The value, or the given failure when absent; `findOrFail` is `ToResult(Abort(404))`. */
    function ToResult(failure: Failure): (r: Result<T>)
      ensures r.Ok? <==> Some?
      ensures r.Ok? ==> r.value == value
      ensures r.Err? ==> r.failure == failure
    {
      match this
      case Some(v) => Ok(v)
      case None => Err(failure)
    }
  }

  /** How a request handler stops early.
      ValidationFailed: the framework's request validation rejected the input (a 422 JSON
      response for API routes, a redirect back with errors for admin forms).
      Abort(status): an explicit `abort(status)` or a `findOrFail` miss (404). */
  datatype Failure = ValidationFailed | Abort(status: nat)

  datatype Result<+T> = Ok(value: T) | Err(failure: Failure) {

    predicate IsFailure() {
      Err?
    }

    function PropagateFailure<U>(): Result<U>
      requires Err?
    {
      Err(failure)
    }

    function Extract(): T
      requires Ok?
    {
      value
    }
  }

  /** Fails with `failure` unless `condition` holds; used with `:-`. */
  datatype Check = Pass | Reject(failure: Failure) {

    predicate IsFailure() {
      Reject?
    }

    function PropagateFailure<U>(): Result<U>
      requires Reject?
    {
      Err(failure)
    }
  }

  function Need(condition: bool, failure: Failure): (c: Check)
    ensures c.Pass? <==> condition
  {
    if condition then Pass else Reject(failure)
  }
}
